=== FILE: README.md ===
# Gravity PDF: Font Manager state machine and bootstrap helpers, in Dafny

This project models the deterministic core of the Gravity PDF WordPress plugin:

- the Font Manager's Redux reducer and its list helpers;
- the font form's validation and edit-diffing (`FontManagerBody`);
- the edit-panel route toggle;
- the reshaping of the Gravity PDF system report;
- the pure decisions in the plugin's bootstrap class;
- the quiz field's export value.

Each is modelled with immutable datatypes and pure functions. A few loops are kept as methods. Environment probes, WordPress callbacks and rendered markup become parameters.

Files (one module each):

| file | module | models |
|---|---|---|
| `options.dfy` | `Options` | `Option` (JS `null`/absent, PHP unset) and `Result` (a value or a `WP_Error`) |
| `text.dfy` | `Text` | ASCII case mapping, `indexOf`/`strpos`, `lastIndexOf`, first-occurrence `replace` |
| `seqs.dfy` | `Seqs` | order-preserving `Filter` and its algebra |
| `php_array.dfy` | `PhpArray` | PHP's ordered arrays: `$a[$k] = v`, `$a[] = v`, `array_merge` |
| `font_utils.dfy` | `FontUtils` | `Font`, `Msg`, `findAndUpdate`, `findAndRemove`, `reduceFontFileName`, `checkFontListIncludes`, `clearMsg` |
| `font_reducer.dfy` | `FontReducer` | the reducer as `Step(State, Action): State`, and runs of actions |
| `font_form.dfy` | `FontForm` | the `FontManagerBody` handlers, each giving the new form and the dispatched action |
| `toggle_update_font.dfy` | `ToggleUpdateFont` | `toggleUpdateFont`, `addClass`, `removeClass` as a route plus a `show` flag |
| `bootstrap.dfy` | `Bootstrap` | version check, settings flags, no-conflict lists, logger, body class, row meta |
| `system_report.dfy` | `SystemReport` | report skeleton, items, build, plugin relocation, export shape |
| `field_quiz.dfy` | `FieldQuiz` | `value()` and `form_data()` with PHP's array-key casting |

The add-font error `msg.error.addFont` is whatever the REST error's `message` holds: a string, which the form's footer shows, or an object of messages keyed by font variant, which the drop zones show.

A note on reducer state: `searchResult` is `Option<seq<Font>>`. `None` means no search is active. `Some([])` is an active search with no hit, because an empty JavaScript array is truthy.

Two choices about the reducer:

- The JavaScript reducer throws a `TypeError` on CLEAR_DROPZONE_ERROR when `msg.error` is absent. `Step` then returns the previous state, as the store keeps it, and `FontReducer.Throws` names that case.
- `handleEditFont` also throws when no font has the edited id. The form model returns the effect `TypeErrorThrown` for it.

The model follows the code where the two visibly disagree:

- The export value of the logged-out timeout is written as `minutes(s)` (the display value says `minute(s)`).
- `internal_encoding` falls back to the default charset for every falsy PHP string, so `'0'` falls back as well as `''`.

## Model

| member | source | states |
|---|---|---|
| FontUtils.FindAndUpdate | src/assets/js/react/utilities/fontManagerReducer.js:1-15 | same length; entries with the edited id take its name and four style paths and keep their id, shortname, useOTL and useKashida; every other entry is unchanged |
| FontUtils.FindAndUpdateIdempotent | src/assets/js/react/utilities/fontManagerReducer.js:1-15 | applying the same edit twice equals applying it once |
| FontUtils.FindAndRemove | src/assets/js/react/utilities/fontManagerReducer.js:17-22 | the result is an in-order subsequence of the list; it holds no font with the id and keeps every font with another id |
| FontUtils.FindAndRemoveIdempotent | src/assets/js/react/utilities/fontManagerReducer.js:17-22 | removing an id twice equals removing it once |
| FontUtils.FindAndRemoveAbsent | src/assets/js/react/utilities/fontManagerReducer.js:17-22 | removal leaves the list unchanged exactly when no font carries the id |
| FontUtils.FindAndRemoveAppend | src/assets/js/react/utilities/fontManagerReducer.js:17-22 | removal distributes over appending one font, and drops that font only when it has the id |
| FontUtils.RemoveAfterUpdate | src/assets/js/react/utilities/fontManagerReducer.js:1-22 | editing a font and then deleting its id gives the same list as deleting it outright |
| FontUtils.ReduceFontFileName | src/assets/js/react/utilities/fontManagerReducer.js:24-29 | the reduced name has no `/`, is lower case, and is no longer than the key |
| FontUtils.ReduceFontPath | src/assets/js/react/utilities/fontManagerReducer.js:24-29 | a stored path `dir/Name.ttf` reduces to the lower-cased `Name` |
| FontUtils.ReduceFontPathWithTail | src/assets/js/react/utilities/fontManagerReducer.js:24-29 | for every directory, `dir/Name.ttf` followed by any slash-free tail reduces to the lower-cased `Name` plus tail, when `Name` holds no exact `.ttf` |
| FontUtils.ReduceFontPathWithoutExtension | src/assets/js/react/utilities/fontManagerReducer.js:24-29 | for every directory and every file name holding no `/` and no exact `.ttf`, the reduced name is the lower-cased file name |
| FontUtils.ReplaceFirstAfter | src/assets/js/react/utilities/fontManagerReducer.js:27 | when a name holds no exact `.ttf`, the replace removes the `.ttf` that follows it and keeps everything after |
| FontUtils.ReduceStripsFirstExtensionOnly | src/assets/js/react/utilities/fontManagerReducer.js:24-29 | a key without `/` is its own file name, and only its first exact `.ttf` is removed before lower-casing |
| FontUtils.ReduceDoubleExtension | src/assets/js/react/utilities/fontManagerReducer.js:24-29 | `a.ttf.ttf` reduces to `a.ttf` |
| FontUtils.ReduceKeepsUpperCaseExtension | src/assets/js/react/utilities/fontManagerReducer.js:26-28 | `.TTF` is not stripped, because the strip is exact and happens before lower-casing: `fonts/Roboto.TTF` reduces to `roboto.ttf` |
| FontUtils.CheckFontListIncludes | src/assets/js/react/utilities/fontManagerReducer.js:31-35 | true exactly when the lower-cased query occurs in the lower-cased name; always true for the empty query |
| FontUtils.ClearMsg | src/assets/js/react/utilities/fontManagerReducer.js:37-51 | success is gone and a truthy add-font error is removed; a falsy one (an empty string) is kept as it was; the error object and its list and delete entries are kept |
| FontUtils.ClearMsgIdempotent | src/assets/js/react/utilities/fontManagerReducer.js:37-51 | clearing twice equals clearing once |
| FontReducer.OnAddFontSuccess | src/assets/js/react/reducers/fontManagerReducer.js:68-86 | with a list error present, the list and search stay and the success joins the kept error. Otherwise the font is appended after unchanged entries, `msg` is exactly the success, and an active (even empty) search becomes the whole new list |
| FontReducer.OnFieldError | src/assets/js/react/reducers/fontManagerReducer.js:88-102 | the add-font error is set, a truthy delete error is removed and a falsy one kept, the list error and success are kept, and add-loading ends |
| FontReducer.OnEditFontSuccess | src/assets/js/react/reducers/fontManagerReducer.js:127-147 | the list becomes `findAndUpdate` of the list; an active search becomes `findAndUpdate` of the search and no search stays none; `msg` is exactly the success and add-loading ends |
| FontReducer.EditFontSuccessIdempotent | src/assets/js/react/reducers/fontManagerReducer.js:127-147 | receiving the same edit twice leaves the state as receiving it once |
| FontReducer.EditThenDeleteIsDelete | src/assets/js/react/reducers/fontManagerReducer.js:127-179 | an edit followed by deleting that font's id leaves the list and the search as deleting it outright |
| FontReducer.OnDeleteFont | src/assets/js/react/reducers/fontManagerReducer.js:149-163 | success is cleared and a truthy delete error is removed (a falsy one is kept); the list and add-font errors and everything outside `msg` are kept |
| FontReducer.OnDeleteFontSuccess | src/assets/js/react/reducers/fontManagerReducer.js:165-179 | the id leaves the list and the search; a search emptied by the removal collapses to none; `msg` and both loading flags are unchanged |
| FontReducer.OnDeleteFontError | src/assets/js/react/reducers/fontManagerReducer.js:181-185 | the delete error is set; the other error entries and success are kept; the list, the search and both loading flags are unchanged |
| FontReducer.OnClearDropzoneError | src/assets/js/react/reducers/fontManagerReducer.js:193-201 | the add-font error becomes an object holding what the spread copies (the variant messages, or a string's characters) except the given key; every other entry, the list, the search and both loading flags are kept |
| FontReducer.ClearDropzoneOnMessage | src/assets/js/react/reducers/fontManagerReducer.js:193-201 | on a string add-font error, clearing a key that holds a non-digit (every variant name does) hides the footer message and leaves exactly the string's characters, each under its decimal index |
| FontReducer.ThrowingStepKeepsState | src/assets/js/react/reducers/fontManagerReducer.js:193-194 | reading `addFont` of a missing error object throws, and the state is kept |
| FontReducer.StepFrames | src/assets/js/react/reducers/fontManagerReducer.js:35-240 | only the three list-request actions touch `loading` (the request sets it, its results clear it); only the add and edit requests and their results touch `addFontLoading` (the requests set it, the results clear it); only the four list results change `fontList`; only the add, edit and delete results, RESET_SEARCH_RESULT and SEARCH_FONT_LIST change `searchResult` |
| FontReducer.StepGetCustomFontList | src/assets/js/react/reducers/fontManagerReducer.js:39-45 | loading starts and every message is dropped; nothing else changes |
| FontReducer.StepGetCustomFontListSuccess | src/assets/js/react/reducers/fontManagerReducer.js:47-52 | loading ends and the list becomes the fetched list; messages, search and add-loading stay |
| FontReducer.StepGetCustomFontListError | src/assets/js/react/reducers/fontManagerReducer.js:54-59 | loading ends and `msg` holds only the list error, which the list shows exactly when the message is non-empty; list, search and add-loading stay |
| FontReducer.StepAddFont | src/assets/js/react/reducers/fontManagerReducer.js:61-66 | add-loading starts and `msg` is cleared as `clearMsg` does; list, search and loading stay |
| FontReducer.StepEditFont | src/assets/js/react/reducers/fontManagerReducer.js:104-125 | EDIT_FONT has the same effect as ADD_FONT |
| FontReducer.StepClearAddFontMsg | src/assets/js/react/reducers/fontManagerReducer.js:187-191 | only `msg` changes, to `clearMsg` of it |
| FontReducer.StepResetSearchResult | src/assets/js/react/reducers/fontManagerReducer.js:203-207 | the search ends and nothing else changes |
| FontReducer.StepSearchFontList | src/assets/js/react/reducers/fontManagerReducer.js:209-235 | the search becomes active with exactly the hits of the query over the list, possibly none; the list and messages stay |
| FontReducer.ReduceFont | src/assets/js/react/reducers/fontManagerReducer.js:213-220 | each of the four style paths becomes `reduceFontFileName` of the old path; id, name, shortname, `useOTL` and `useKashida` are kept |
| FontReducer.SearchFonts | src/assets/js/react/reducers/fontManagerReducer.js:209-235 | every hit is a reduced font matching the query on name or a style; every matching reduced font is a hit; hits keep list order; an empty list gives no hit |
| FontReducer.SearchFontsAppend | src/assets/js/react/reducers/fontManagerReducer.js:222-232 | one more font adds its reduced form to the hits, once, exactly when it matches; with the empty case this fixes every hit's multiplicity |
| FontReducer.UnrecognisedUnchanged | src/assets/js/react/reducers/fontManagerReducer.js:237-238 | an unknown action returns the state unchanged |
| FontReducer.ListFrame | src/assets/js/react/reducers/fontManagerReducer.js:35-240 | any run of actions other than the four list actions leaves `fontList` unchanged |
| FontReducer.AddThenDeleteRestores | src/assets/js/react/reducers/fontManagerReducer.js:68-86 | adding a font with a new id and then deleting that id restores the list |
| FontReducer.SearchIdsKnownPreserved | src/assets/js/react/reducers/fontManagerReducer.js:35-240 | every action except loading a fresh list keeps each searched font's id in the font list |
| FontReducer.SearchEmptyQueryListsAll | src/assets/js/react/reducers/fontManagerReducer.js:209-235 | the empty query returns the whole reduced list |
| FontReducer.SearchWithoutHitIsEmpty | src/assets/js/react/reducers/fontManagerReducer.js:209-235 | a query nothing matches gives an empty list, not "no search" |
| FontReducer.DeleteDuringSearch | src/assets/js/react/reducers/fontManagerReducer.js:165-179 | after a search and a delete, the list lacks the id and what is left of the search still matches the query and lacks the id |
| FontReducer.AddFontThenError | src/assets/js/react/reducers/fontManagerReducer.js:61-102 | ADD_FONT then ADD_FONT_ERROR ends loading, drops success, sets the field errors and keeps the list error |
| FontForm.MatchesLabelPattern | src/assets/js/react/components/FontManager/FontManagerBody.js:131 | the label pattern accepts exactly strings made of `[0-9a-zA-Z ]` |
| FontForm.ValidateInputFields | src/assets/js/react/components/FontManager/FontManagerBody.js:126-158 | valid exactly when the label is non-empty and matches the pattern and `regular` is truthy; the two flags are the two outcomes |
| FontForm.HandleAddFont | src/assets/js/react/components/FontManager/FontManagerBody.js:160-169 | invalid input dispatches only the message clear; valid input sends the label and all four slots |
| FontForm.EditChanges | src/assets/js/react/components/FontManager/FontManagerBody.js:181-185 | a slot is sent exactly when it is a new upload or `''`, with its value |
| FontForm.FirstWithId | src/assets/js/react/components/FontManager/FontManagerBody.js:187 | the first font with the id, or none exactly when no font has it |
| FontForm.HandleEditFont | src/assets/js/react/components/FontManager/FontManagerBody.js:171-204 | invalid input only clears the message; a missing font throws; an unchanged label and slots dispatch nothing; otherwise the edit carries the id, the label and exactly the sendable slots |
| FontForm.HandleSubmit | src/assets/js/react/components/FontManager/FontManagerBody.js:213-223 | a truthy route id edits, otherwise the form adds; an add never dispatches an edit and vice versa |
| FontForm.HandleRemoveFontDetails | src/assets/js/react/components/FontManager/FontManagerBody.js:85-97 | the label and all four slots are empty and both warnings are off |
| FontForm.HandleRequestFontDetails | src/assets/js/react/components/FontManager/FontManagerBody.js:68-83 | loads the first font with the id so the form equals it, with both warnings off; none exactly when no font has the id |
| FontForm.HandleUpload | src/assets/js/react/components/FontManager/FontManagerBody.js:122-124 | only the named slot changes, to the upload; the label and both validation flags are kept |
| FontForm.HandleDeleteFontStyle | src/assets/js/react/components/FontManager/FontManagerBody.js:99-116 | only the named slot empties and the regular warning goes off; the dropzone clear is dispatched exactly when the add-font error is truthy, that is an object or a non-empty string |
| FontForm.ClearedFormDoesNotSubmit | src/assets/js/react/components/FontManager/FontManagerBody.js:85-97 | submitting a cleared form fails both checks and only clears the message |
| FontForm.LoadThenSaveIsNoChange | src/assets/js/react/components/FontManager/FontManagerBody.js:195-201 | loading a valid font and saving it at once dispatches nothing |
| FontForm.EditOneSlot | src/assets/js/react/components/FontManager/FontManagerBody.js:171-204 | saving a form that differs from a fully stored font in one sendable slot sends exactly that slot under the stored label |
| FontForm.ClearOneSlotSendsOnlyIt | src/assets/js/react/components/FontManager/FontManagerBody.js:171-204 | emptying one optional slot of a loaded font sends exactly that slot as `''` |
| FontForm.UploadSendsOnlyTheUpload | src/assets/js/react/components/FontManager/FontManagerBody.js:171-204 | dropping a file into one slot of a loaded font sends exactly that upload |
| ToggleUpdateFont.Toggle | src/assets/js/react/utilities/toggleUpdateFont.js:1-16 | no id or an empty id closes; an id equal to the route's last segment closes; any other id opens its route |
| ToggleUpdateFont.RemoveClass | src/assets/js/react/utilities/toggleUpdateFont.js:18-22 | closing goes to `/fontmanager/` without `show` |
| ToggleUpdateFont.AddClass | src/assets/js/react/utilities/toggleUpdateFont.js:24-28 | opening goes to `/fontmanager/` plus the id, with `show` |
| ToggleUpdateFont.ToggleTwiceCloses | src/assets/js/react/utilities/toggleUpdateFont.js:5-15 | from the list route, toggling one slash-free id twice opens and then closes its panel |
| ToggleUpdateFont.ShowIffRouteEndsInId | src/assets/js/react/utilities/toggleUpdateFont.js:18-28 | `show` is on exactly when the pushed route ends in a (non-empty) font id |
| ToggleUpdateFont.ToggleOtherSwitches | src/assets/js/react/utilities/toggleUpdateFont.js:8-12 | with one panel open, another id switches the panel to it |
| ToggleUpdateFont.SlashInIdKeepsPanelOpen | src/assets/js/react/utilities/toggleUpdateFont.js:8 | an id holding `/` never equals the last segment, so a second toggle does not close |
| PhpArray.Set | src/bootstrap.php:655-659 | the key maps to the value; other keys are unchanged; an existing key is overwritten at its own position with every other entry kept, a new one appended; keys stay distinct |
| PhpArray.Push | src/bootstrap.php:596-598 | appends the value under a fresh integer key; string keys and distinctness are kept |
| PhpArray.MergeAppends | src/bootstrap.php:417 | `array_merge` of arrays sharing no string key lists the left values and then the right ones, with distinct keys |
| PhpArray.MergeOverwrites | src/bootstrap.php:417 | merging a string key already present is exactly `$a[$k] = $v`: the entry is overwritten at its own position, not appended |
| Bootstrap.IsDevelopmentVersion | src/bootstrap.php:363-376 | true exactly when `alpha`, `beta` or `rc` occurs in the lower-cased version |
| Bootstrap.DevelopmentVersionIgnoresCase | src/bootstrap.php:366 | the classification ignores letter case |
| Bootstrap.ReleaseCandidateIsDevelopment | src/bootstrap.php:363-376 | `4.0.0-RC1` is a development version |
| Bootstrap.StableReleaseIsNotDevelopment | src/bootstrap.php:363-376 | `4.0.1` is not |
| Bootstrap.GetDefaultConfigData | src/bootstrap.php:856-880 | each flag is on exactly when its setting is present and equals `Yes`; a failed lookup turns all four off |
| Bootstrap.ErrorIsEmptySettings | src/bootstrap.php:862-873 | a failed settings lookup behaves as empty settings |
| Bootstrap.ConfigReadsOnlyShowKeys | src/bootstrap.php:875-880 | settings other than the four `show_*` keys do not affect the flags |
| Bootstrap.OnlyExactYesTurnsOn | src/bootstrap.php:877 | any value other than `Yes` leaves the flag off |
| Bootstrap.HandleMatcherIsPrefixTest | src/bootstrap.php:596 | with the prefix exactly `n` long, `substr(h, 0, n) === prefix` is a starts-with test |
| Bootstrap.PushMatching | src/bootstrap.php:595-599 | the queued handles passing the test are appended after the items in queue order |
| Bootstrap.PrependList | src/bootstrap.php:602 | merging a list literal in front puts its values first |
| Bootstrap.AutoNoconflictScripts | src/bootstrap.php:564-605 | the result lists the defaults (on a plugin page only), then the items, then the queued handles starting with `gfpdf_js`, in queue order |
| Bootstrap.AutoNoconflictStyles | src/bootstrap.php:617-643 | the same with the five default styles and the 9-character prefix `gfpdf_css` |
| Bootstrap.AddGfLogger | src/bootstrap.php:655-659 | `gravity-pdf` maps to `Gravity PDF` and every other logger is unchanged |
| Bootstrap.AddGfLoggerIdempotent | src/bootstrap.php:655-659 | registering twice equals registering once |
| Bootstrap.AddBodyClass | src/bootstrap.php:432-439 | the classes are extended, by exactly ` gfpdf-page`, if and only if on a plugin page |
| Bootstrap.PluginRowMeta | src/bootstrap.php:407-420 | another plugin's row is returned unchanged; the plugin's own row is merged with the three links |
| Bootstrap.PluginRowMetaAppends | src/bootstrap.php:407-420 | on the plugin's row, the docs, support and shop links follow the existing links in that order |
| SystemReport.GetReportStructure | src/Model/Model_System_Report.php:86-119 | one section with four tables, each empty and with an export title starting `Gravity PDF - ` |
| SystemReport.GetReportItems | src/Model/Model_System_Report.php:127-232 | four item lists of 4, 7, 3 and 2 rows, each with distinct ids |
| SystemReport.InternalEncoding | src/Model/Model_System_Report.php:155 | a truthy `internal_encoding` is shown; a falsy one gives the default charset |
| SystemReport.EntryListAction | src/Model/Model_System_Report.php:203 | shows `View` exactly for the option `View`, and `Download` otherwise |
| SystemReport.DefaultRestriction | src/Model/Model_System_Report.php:224 | with no saved capabilities the restriction row names `gravityforms_view_entries` |
| SystemReport.EncodingFallsBackToCharset | src/Model/Model_System_Report.php:153-156 | a falsy internal encoding is reported as the default charset |
| SystemReport.FillFreshItems | src/Model/Model_System_Report.php:71-75 | assigning items with new ids lays them out in order after the existing ones |
| SystemReport.BuildGravityPdfReport | src/Model/Model_System_Report.php:69-78 | the built report keeps the single section, its titles, and the four tables with their titles |
| SystemReport.BuiltTablesHoldTheirItems | src/Model/Model_System_Report.php:69-78 | table `i` holds exactly the `i`-th item list, keyed by id |
| SystemReport.PushPlugins | src/Model/Model_System_Report.php:310-312 | the existing add-on entries keep their keys and order; after them come exactly the values of the rows passing the test, in order, each under a non-negative integer key the add-on table did not have |
| SystemReport.MoveGravityPdfPlugins | src/Model/Model_System_Report.php:306-318 | without an "Active Plugins" table, or with no Gravity PDF row in it, the report is unchanged. Otherwise that table keeps exactly its non-Gravity-PDF rows; the add-on table keeps its entries and gains the Gravity PDF rows in order under fresh integer keys, so distinct keys stay distinct; no other section or table changes |
| SystemReport.MoveConservesPlugins | src/Model/Model_System_Report.php:306-318 | every plugin row is either moved or kept, never both or neither |
| SystemReport.MoveConservesCount | src/Model/Model_System_Report.php:306-318 | the add-on table gains as many rows as the plugin table loses |
| SystemReport.SampleMovesThreeKeepsTwo | tests/phpunit/unit-tests/Model/Test_Model_System_Report.php:52-77 | of the five sample plugins three move and two stay |
| SystemReport.MoveSampleReport | tests/phpunit/unit-tests/Model/Test_Model_System_Report.php:52-65 | moving the five sample rows out of "Active Plugins" into an empty add-on table leaves three add-on rows and two plugin rows |
| SystemReport.PrepareReport | src/Model/Model_System_Report.php:325-332 | the label is exported as shown; the export value is the item's own or else its value |
| FieldQuiz.Value | src/helper/fields/Field_Quiz.php:115-129 | the first choice carrying the stored value gives text, correctness and weight; with no match all three are `''` |
| FieldQuiz.FromChoice | src/helper/fields/Field_Quiz.php:120-124 | a matched choice without `gquizWeight` has weight `''` |
| FieldQuiz.LaterChoicesIgnored | src/helper/fields/Field_Quiz.php:118-126 | choices after the first match never change the value |
| FieldQuiz.UnknownValueIsEmpty | src/helper/fields/Field_Quiz.php:128 | a value no choice carries yields the empty answer |
| FieldQuiz.DecimalKeyIsIntKey | src/helper/fields/Field_Quiz.php:66 | an id written in decimal is read back as that integer key |
| FieldQuiz.FormData | src/helper/fields/Field_Quiz.php:59-75 | the same value sits under every one of the six keys, and under no other key |
| FieldQuiz.FormDataHasIdKey | src/helper/fields/Field_Quiz.php:66 | the field id is always a key, as an integer |
| FieldQuiz.NumericLabelSharesIdKey | src/helper/fields/Field_Quiz.php:66-67 | a label equal to the id's decimal form shares the id's key |
| FieldQuiz.NumericLabelLeavesFourEntries | src/helper/fields/Field_Quiz.php:59-75 | with a label equal to the id's decimal form, the six assignments leave exactly four entries |

## Left out

- The async sagas (`sagas/fontManager.js`) are left out: they do network I/O with `takeLatest` cancellation. Their SUCCESS and ERROR actions are the reducer's inputs.
- React rendering, DOM class toggling and event wiring are left out. `FontManagerBody.componentDidUpdate`, `handleInputChange` and `handleCancelEditFont` are among them.
- `HelpContainer`, the jQuery AJAX duplicate listener and the other UI components are left out: they are widget, DOM and network code.
- WordPress plumbing in `src/bootstrap.php` is left out: hook and asset registration, logger setup, `query_vars`, `apply_filters`, and `plugin_action_links`. The no-conflict lists are modelled up to the `apply_filters` call.
- Environment probes and markup in the system report are left out. `ini_get`, `wp_is_writable`, the temp-folder test, `get_ram` and the view's icon markup are fields of `SystemReport.Env`.
- `Field_Quiz::html` is left out: it depends on a DOM library, filters and `class_exists`. `View_PDF` is an empty class.
- Translation and escaping (`__`, `esc_html__`, `esc_url`, `esc_attr`) are taken as the identity.
- In-place mutation through shared JavaScript objects is not modelled. The model has value semantics and diverges from the code in three places:
  - SEARCH_FONT_LIST overwrites the stored fonts' paths with reduced names;
  - `findAndUpdate` mutates fonts shared with the previous state;
  - `delete` on a shallow copy of `msg.error` also changes the previous state's error.
- FontReducer.Step: when CLEAR_DROPZONE_ERROR is dispatched with no `msg.error`, the source throws, and the model returns the previous state, flagged by `Throws`.
- FontReducer.OnClearDropzoneError: a string's characters are spread under the decimal indexes of its UTF-16 code units; the model spreads `char`s, which agrees for every character in the Basic Multilingual Plane.
- Case mapping is ASCII only (`toLowerCase`, `strtolower`, `stripos`). Non-ASCII letters are left as they are.
- FieldQuiz.Value: PHP's loose `==` between a choice value and the stored value is modelled as string equality. Numeric strings that compare equal loosely, such as `"1"` and `"01"`, are not matched.
- Bootstrap.GetDefaultConfigData: the loose `== 'Yes'` is modelled as string equality, and settings values as strings.
- Bootstrap.PluginRowMeta: `$file == PDF_PLUGIN_BASENAME` is modelled as string equality.
- FieldQuiz.FromChoice: `Choice.isCorrect` is a boolean, so a choice without `gquizIsCorrect` (PHP then reads `null`) is not modelled.
- FieldQuiz.FormData: returns the inner `field` array. Integer-key casting ignores the platform's integer range. The id is a non-negative integer.
- SystemReport.GetReportItems: an unset scalar option reads as `''`, where PHP's `get_option` would give `false`. The capabilities option is either unset or a list of strings.
- SystemReport.MoveGravityPdfPlugins: when a row moves and section 0 has no table at index 0 either, the model pads it with two empty tables, where PHP's autovivification would create only the table at index 1. Every table has an `items` array; a row whose `label` is missing is not modelled.
- The PHP arrays' next free integer key is the largest integer key plus one (at least 0). The memory of keys removed earlier is not modelled.

=== FILE: bootstrap.dfy ===
/**
 * The pure decisions taken by the plugin's bootstrap class
 * (`src/bootstrap.php`, class `Router`): version classification, the
 * settings-to-flags mapping, the no-conflict handle lists, and the small
 * array and string edits made on WordPress and Gravity Forms hooks. What
 * WordPress supplies (the script queue, whether the current admin page is a
 * plugin page, the settings URL) is a parameter; `esc_url`, `esc_attr` and
 * `__` are taken as the identity.
 */
module Bootstrap {
  import opened Options
  import opened Text
  import opened Seqs
  import opened PhpArray

  // ---------------------------------------------------------------------
  // is_development_version

  const DevMarkers: seq<string> := ["alpha", "beta", "rc"]

  /** Some marker of `markers` occurs in `v`. */
  function AnyMarker(v: string, markers: seq<string>): (r: bool)
    ensures r <==> exists i :: 0 <= i < |markers| && Contains(v, markers[i])
  {
    if markers == [] then false
    else if Contains(v, markers[0]) then true
    else
      var rest := AnyMarker(v, markers[1..]);
      assert forall i :: 1 <= i < |markers| ==> markers[i] == markers[1..][i - 1];
      rest
  }

  /** A development build names `alpha`, `beta` or `rc` anywhere in its version, in any case. */
  function IsDevelopmentVersion(version: string): (r: bool)
    ensures r <==> exists i :: 0 <= i < |DevMarkers| && Contains(Lower(version), DevMarkers[i])
  {
    AnyMarker(Lower(version), DevMarkers)
  }

  /** The classification ignores letter case. */
  lemma DevelopmentVersionIgnoresCase(version: string)
    ensures IsDevelopmentVersion(Lower(version)) == IsDevelopmentVersion(version)
  {
    LowerIdempotent(version);
  }

  lemma ReleaseCandidateIsDevelopment()
    ensures IsDevelopmentVersion("4.0.0-RC1")
  {
    var v := Lower("4.0.0-RC1");
    assert v[6] == 'r' && v[7] == 'c';
    assert v[6..8] == "rc";
    assert OccursAt(v, DevMarkers[2], 6);
  }

  lemma StableReleaseIsNotDevelopment()
    ensures !IsDevelopmentVersion("4.0.1")
  {
    var v := Lower("4.0.1");
    assert forall i :: 0 <= i < |v| ==> v[i] in "4.01";
    NotContainedWithoutFirstChar(v, DevMarkers[0]);
    NotContainedWithoutFirstChar(v, DevMarkers[1]);
    NotContainedWithoutFirstChar(v, DevMarkers[2]);
  }

  // ---------------------------------------------------------------------
  // get_default_config_data

  /** The four display flags handed to the settings API. */
  datatype Config = Config(emptyField: bool, htmlField: bool, pageNames: bool, sectionContent: bool)

  const AllOff := Config(false, false, false, false)

  /** `isset($settings[$key]) && $settings[$key] == 'Yes'`, taking `==` as string equality. */
  predicate IsYes(settings: map<string, string>, key: string) {
    key in settings && settings[key] == "Yes"
  }

  /**
   * The PDF's settings as flags. A settings lookup that fails (a `WP_Error`)
   * is replaced by the empty settings, which turns every flag off.
   */
  function GetDefaultConfigData(settings: Result<map<string, string>, string>): (r: Config)
    ensures settings.Failure? ==> r == AllOff
    ensures settings.Success? ==> r.emptyField == IsYes(settings.value, "show_empty")
    ensures settings.Success? ==> r.htmlField == IsYes(settings.value, "show_html")
    ensures settings.Success? ==> r.pageNames == IsYes(settings.value, "show_page_names")
    ensures settings.Success? ==> r.sectionContent == IsYes(settings.value, "show_section_content")
  {
    var s := if settings.Failure? then map[] else settings.value;
    Config(IsYes(s, "show_empty"), IsYes(s, "show_html"), IsYes(s, "show_page_names"), IsYes(s, "show_section_content"))
  }

  /** A failed lookup behaves exactly like a PDF with no settings saved. */
  lemma ErrorIsEmptySettings(e: string)
    ensures GetDefaultConfigData(Failure(e)) == GetDefaultConfigData(Success(map[]))
  {
  }

  /** Only the four `show_*` keys matter; any other setting leaves the flags alone. */
  lemma ConfigReadsOnlyShowKeys(s: map<string, string>, key: string, v: string)
    requires key !in {"show_empty", "show_html", "show_page_names", "show_section_content"}
    ensures GetDefaultConfigData(Success(s[key := v])) == GetDefaultConfigData(Success(s))
  {
  }

  /** Any value other than exactly `Yes` (for instance `yes` or `No`) leaves a flag off. */
  lemma OnlyExactYesTurnsOn(s: map<string, string>)
    requires "show_html" in s && s["show_html"] != "Yes"
    ensures !GetDefaultConfigData(Success(s)).htmlField
  {
  }

  // ---------------------------------------------------------------------
  // auto_noconflict_scripts / auto_noconflict_styles

  const DefaultScripts: seq<string> := [
    "editor", "word-count", "quicktags", "wpdialogs-popup", "media-upload", "wplink",
    "backbone", "underscore", "media-editor", "media-models", "media-views", "plupload",
    "plupload-flash", "plupload-html4", "plupload-html5", "plupload-silverlight",
    "wp-plupload", "gform_placeholder", "jquery-ui-autocomplete", "thickbox"
  ]

  const DefaultStyles: seq<string> := ["editor-buttons", "wp-jquery-ui-dialog", "media-views", "buttons", "thickbox"]

  /** `substr($s, 0, $n)`: the first `n` characters, or all of `s` when it is shorter. */
  function Head(s: string, n: nat): (r: string)
    ensures |r| == if |s| < n then |s| else n
    ensures r == s[..|r|]
  {
    if |s| <= n then s else s[..n]
  }

  /** The queue filter: `substr($handle, 0, n) === prefix`. */
  function HandleMatcher(prefix: string, n: nat): string -> bool {
    h => Head(h, n) == prefix
  }

  /** With the prefix exactly `n` long, the test is an ordinary "starts with". */
  lemma HandleMatcherIsPrefixTest(prefix: string, n: nat, h: string)
    requires |prefix| == n
    ensures HandleMatcher(prefix, n)(h) <==> n <= |h| && h[..n] == prefix
  {
  }

  /** One turn of the `foreach`: push `h` when it passes the test. */
  function PushIf(items: seq<Entry<string>>, h: string, keep: bool): (r: seq<Entry<string>>)
    requires Unique(items)
    ensures Unique(r)
    ensures Values(r) == Values(items) + (if keep then [h] else [])
  {
    if keep then Push(items, h) else items
  }

  /** After one more turn, the pushed values are the filter of one more queued handle. */
  lemma PushMatchingStep(items: seq<Entry<string>>, queue: seq<string>, p: string -> bool,
                         i: nat, r: seq<Entry<string>>)
    requires i < |queue| && Unique(r)
    requires Values(r) == Values(items) + Filter(p, queue[..i])
    ensures Values(PushIf(r, queue[i], p(queue[i]))) == Values(items) + Filter(p, queue[..i + 1])
  {
    var x := queue[i];
    var before := Filter(p, queue[..i]);
    var step := if p(x) then [x] else [];
    assert queue[..i + 1] == queue[..i] + [x];
    FilterSnoc(p, queue[..i], x);
    assert Values(items) + (before + step) == (Values(items) + before) + step;
  }

  /** The `foreach` over the queue: every handle passing `p` is pushed onto `items`, in queue order. */
  method PushMatching(items: seq<Entry<string>>, queue: seq<string>, p: string -> bool)
    returns (r: seq<Entry<string>>)
    requires Unique(items)
    ensures Unique(r)
    ensures Values(r) == Values(items) + Filter(p, queue)
  {
    r := items;
    var i := 0;
    while i < |queue|
      invariant 0 <= i <= |queue|
      invariant Unique(r)
      invariant Values(r) == Values(items) + Filter(p, queue[..i])
    {
      PushMatchingStep(items, queue, p, i, r);
      r := PushIf(r, queue[i], p(queue[i]));
      i := i + 1;
    }
    assert queue[..|queue|] == queue;
  }

  /** `array_merge($list, $a)` for a list literal `$list`: its values come first. */
  function PrependList(list: seq<string>, a: seq<Entry<string>>): (r: seq<Entry<string>>)
    requires Unique(a)
    ensures Unique(r)
    ensures Values(r) == list + Values(a)
  {
    var front := FromList(list);
    MergeAppends(front, a);
    Merge(front, a)
  }

  /**
   * The shared body of both no-conflict filters: queued handles that pass the
   * prefix test are pushed onto `items` in queue order, and on a plugin page
   * the defaults are merged in front.
   */
  method AutoNoconflict(items: seq<Entry<string>>, queue: seq<string>, prefix: string, n: nat,
                        defaults: seq<string>, onPluginPage: bool)
    returns (r: seq<Entry<string>>)
    requires Unique(items)
    ensures Unique(r)
    ensures Values(r) == (if onPluginPage then defaults else []) + Values(items) + Filter(HandleMatcher(prefix, n), queue)
  {
    var pushed := PushMatching(items, queue, HandleMatcher(prefix, n));
    r := if onPluginPage then PrependList(defaults, pushed) else pushed;
    PrependValues(defaults, onPluginPage, Values(pushed), Values(items),
                  Filter(HandleMatcher(prefix, n), queue), Values(r));
  }

  /** The value-level shape of `AutoNoconflict`: the defaults, if any, go in front. */
  lemma PrependValues(defaults: seq<string>, onPluginPage: bool, pushed: seq<string>,
                      items: seq<string>, matched: seq<string>, result: seq<string>)
    requires pushed == items + matched
    requires result == (if onPluginPage then defaults + pushed else pushed)
    ensures result == (if onPluginPage then defaults else []) + items + matched
  {
    if onPluginPage {
      assert defaults + (items + matched) == defaults + items + matched;
    } else {
      assert [] + items == items;
    }
  }

  /** `auto_noconflict_scripts`, before the result goes through `apply_filters`. */
  method AutoNoconflictScripts(items: seq<Entry<string>>, queue: seq<string>, onPluginPage: bool)
    returns (r: seq<Entry<string>>)
    requires Unique(items)
    ensures Unique(r)
    ensures Values(r) == (if onPluginPage then DefaultScripts else []) + Values(items) + Filter(HandleMatcher("gfpdf_js", 8), queue)
  {
    r := AutoNoconflict(items, queue, "gfpdf_js", 8, DefaultScripts, onPluginPage);
  }

  /** `auto_noconflict_styles`, before the result goes through `apply_filters`. */
  method AutoNoconflictStyles(items: seq<Entry<string>>, queue: seq<string>, onPluginPage: bool)
    returns (r: seq<Entry<string>>)
    requires Unique(items)
    ensures Unique(r)
    ensures Values(r) == (if onPluginPage then DefaultStyles else []) + Values(items) + Filter(HandleMatcher("gfpdf_css", 9), queue)
  {
    r := AutoNoconflict(items, queue, "gfpdf_css", 9, DefaultStyles, onPluginPage);
  }

  // ---------------------------------------------------------------------
  // add_gf_logger, add_body_class, plugin_row_meta

  const LoggerKey := StrKey("gravity-pdf")

  /** Registers the plugin with Gravity Forms' logger, touching no other logger. */
  function AddGfLogger(loggers: seq<Entry<string>>): (r: seq<Entry<string>>)
    ensures Lookup(r, LoggerKey) == Some("Gravity PDF")
    ensures forall k :: k != LoggerKey ==> Lookup(r, k) == Lookup(loggers, k)
    ensures Unique(loggers) ==> Unique(r)
  {
    Set(loggers, LoggerKey, "Gravity PDF")
  }

  /** Registering twice is the same as registering once. */
  lemma AddGfLoggerIdempotent(loggers: seq<Entry<string>>)
    ensures AddGfLogger(AddGfLogger(loggers)) == AddGfLogger(loggers)
  {
    AddGfLoggerTwice(loggers);
  }

  lemma {:induction false} AddGfLoggerTwice(a: seq<Entry<string>>)
    ensures Set(Set(a, LoggerKey, "Gravity PDF"), LoggerKey, "Gravity PDF") == Set(a, LoggerKey, "Gravity PDF")
  {
    if a != [] && a[0].key != LoggerKey {
      AddGfLoggerTwice(a[1..]);
    }
  }

  const BodyClass := " gfpdf-page"

  /** The admin body classes, extended with ` gfpdf-page` exactly on the plugin's own pages. */
  function AddBodyClass(classes: string, onPluginPage: bool): (r: string)
    ensures |classes| <= |r| && r[..|classes|] == classes
    ensures onPluginPage <==> |r| > |classes|
    ensures onPluginPage ==> r[|classes|..] == BodyClass
  {
    if onPluginPage then classes + BodyClass else classes
  }

  const DocsLink := "<a href=\"#\" title=\"View Gravity PDF Documentation\">Docs</a>"
  const ShopLink := "<a href=\"#\" title=\"View Gravity PDF Theme Shop\">Theme Shop</a>"

  function SupportLink(settingsUrl: string): string {
    "<a href=\"" + settingsUrl + "&tab=help\" title=\"Get Help and Support\">Support</a>"
  }

  /** The three links added to the plugin's row. */
  function RowMeta(settingsUrl: string): seq<Entry<string>> {
    [Entry(StrKey("docs"), DocsLink), Entry(StrKey("support"), SupportLink(settingsUrl)), Entry(StrKey("shop"), ShopLink)]
  }

  /** `plugin_row_meta`: only the plugin's own row gets the extra links. */
  function PluginRowMeta(links: seq<Entry<string>>, file: string, basename: string, settingsUrl: string): (r: seq<Entry<string>>)
    ensures file != basename ==> r == links
    ensures file == basename ==> r == Merge(links, RowMeta(settingsUrl))
  {
    if file == basename then Merge(links, RowMeta(settingsUrl)) else links
  }

  /**
   * On the plugin's row, with none of `docs`, `support` or `shop` already
   * present, the three links follow the existing ones in that order.
   */
  lemma PluginRowMetaAppends(links: seq<Entry<string>>, basename: string, settingsUrl: string)
    requires Unique(links)
    requires !HasKey(links, StrKey("docs")) && !HasKey(links, StrKey("support")) && !HasKey(links, StrKey("shop"))
    ensures Values(PluginRowMeta(links, basename, basename, settingsUrl)) == Values(links) + [DocsLink, SupportLink(settingsUrl), ShopLink]
    ensures Unique(PluginRowMeta(links, basename, basename, settingsUrl))
  {
    var meta := RowMeta(settingsUrl);
    var tail1, tail2 := meta[1..], meta[1..][1..];
    assert tail2[1..] == [];
    assert Values(tail2) == [ShopLink];
    assert Values(tail1) == [SupportLink(settingsUrl), ShopLink];
    assert Values(meta) == [DocsLink, SupportLink(settingsUrl), ShopLink];
    forall k
      ensures HasKey(meta, k) <==> k == StrKey("docs") || k == StrKey("support") || k == StrKey("shop")
    {
      assert HasKey(tail2, k) <==> k == StrKey("shop");
      assert HasKey(tail1, k) <==> k == StrKey("support") || k == StrKey("shop");
    }
    assert Unique(tail2);
    assert Unique(tail1);
    assert Unique(meta);
    MergeAppends(links, meta);
  }
}

=== FILE: field_quiz.dfy ===
/**
 * The quiz field's export value (`src/helper/fields/Field_Quiz.php`): the
 * first choice whose value equals the stored entry value, reduced to its
 * text, correctness flag and weight, and that value fanned out under the
 * field's id and label keys. PHP's loose `==` between a choice value and the
 * stored value is taken as string equality.
 */
module FieldQuiz {
  import opened Options
  import opened PhpArray
  import opened Text

  /** `gquizIsCorrect` is a boolean on a choice; the no-match value uses `''` instead. */
  datatype Scalar = Str(s: string) | Bool(b: bool)

  datatype Choice = Choice(text: string, value: string, isCorrect: bool, weight: Option<string>)

  datatype QuizValue = QuizValue(text: string, isCorrect: Scalar, weight: string)

  const NoAnswer := QuizValue("", Str(""), "")

  /** The array returned for a matching choice; a missing `gquizWeight` reads as `''`. */
  function FromChoice(c: Choice): (r: QuizValue)
    ensures r.text == c.text && r.isCorrect == Bool(c.isCorrect)
    ensures c.weight.None? ==> r.weight == ""
    ensures c.weight.Some? ==> r.weight == c.weight.value
  {
    QuizValue(c.text, Bool(c.isCorrect), c.weight.GetOr(""))
  }

  /** `i` is the first position whose choice carries `stored`. */
  predicate FirstMatchAt(choices: seq<Choice>, stored: string, i: int) {
    && 0 <= i < |choices|
    && choices[i].value == stored
    && forall j :: 0 <= j < i ==> choices[j].value != stored
  }

  /** `value()`: the first choice carrying the stored value, or three empty strings. */
  function Value(choices: seq<Choice>, stored: string): (r: QuizValue)
    ensures (forall i :: 0 <= i < |choices| ==> choices[i].value != stored) ==> r == NoAnswer
    ensures forall i :: FirstMatchAt(choices, stored, i) ==> r == FromChoice(choices[i])
  {
    if choices == [] then NoAnswer
    else if choices[0].value == stored then FromChoice(choices[0])
    else
      var r := Value(choices[1..], stored);
      assert forall i :: FirstMatchAt(choices, stored, i) ==> FirstMatchAt(choices[1..], stored, i - 1);
      r
  }

  /** Choices after the first match never influence the value. */
  lemma {:induction false} LaterChoicesIgnored(choices: seq<Choice>, more: seq<Choice>, stored: string)
    requires exists i :: 0 <= i < |choices| && choices[i].value == stored
    ensures Value(choices + more, stored) == Value(choices, stored)
  {
    assert choices != [];
    if choices[0].value != stored {
      assert (choices + more)[1..] == choices[1..] + more;
      var i :| 0 <= i < |choices| && choices[i].value == stored;
      assert choices[1..][i - 1].value == stored;
      LaterChoicesIgnored(choices[1..], more, stored);
    }
  }

  /** A stored value that no choice carries yields the empty answer, whatever the choices say. */
  lemma UnknownValueIsEmpty(choices: seq<Choice>, stored: string)
    requires forall c :: c in choices ==> c.value != stored
    ensures Value(choices, stored) == NoAnswer
  {
  }

  // ---------------------------------------------------------------------
  // Array keys

  /** A decimal integer in canonical form: `0`, or digits without a leading zero, optionally negative. */
  predicate IsCanonicalInt(s: string) {
    || s == "0"
    || (|s| > 0 && s[0] != '0' && forall i :: 0 <= i < |s| ==> IsDigit(s[i]))
    || (|s| > 1 && s[0] == '-' && s[1] != '0' && forall i :: 1 <= i < |s| ==> IsDigit(s[i]))
  }

  /** The key PHP uses for `$a[$s]`: canonical integer strings become integer keys. */
  function PhpKey(s: string): (r: Key)
    ensures r.StrKey? <==> !IsCanonicalInt(s)
    ensures r.StrKey? ==> r.s == s
  {
    if !IsCanonicalInt(s) then StrKey(s)
    else if s[0] == '-' then IntKey(0 - ParseDigits(s[1..]) as int)
    else IntKey(ParseDigits(s))
  }

  /** The decimal form of an id is read back as that id's integer key. */
  lemma DecimalKeyIsIntKey(n: nat)
    ensures PhpKey(Decimal(n)) == IntKey(n)
  {
    ParseDecimal(n);
  }

  /** A string holding a `.` is never an integer key. */
  lemma DottedKeyIsStringKey(s: string)
    requires '.' in s
    ensures PhpKey(s) == StrKey(s)
  {
  }

  /** Nor is a string holding a `_`. */
  lemma NamedKeyIsStringKey(s: string)
    requires '_' in s
    ensures PhpKey(s) == StrKey(s)
  {
  }

  // ---------------------------------------------------------------------
  // form_data

  /** The six keys of `form_data`, in assignment order. */
  function FormDataKeys(id: nat, caption: string): seq<Key> {
    var sid := Decimal(id);
    [ PhpKey(sid + "." + caption), IntKey(id), PhpKey(caption),
      PhpKey(sid + "." + caption + "_name"), PhpKey(sid + "_name"), PhpKey(caption + "_name") ]
  }

  function SetAll(a: seq<Entry<QuizValue>>, keys: seq<Key>, v: QuizValue): (r: seq<Entry<QuizValue>>)
    ensures forall k :: k in keys ==> Lookup(r, k) == Some(v)
    ensures forall k :: k !in keys ==> Lookup(r, k) == Lookup(a, k)
    ensures Unique(a) ==> Unique(r)
    decreases |keys|
  {
    if keys == [] then a else SetAll(Set(a, keys[0], v), keys[1..], v)
  }

  /**
   * `form_data()['field']`: the quiz value under all six keys, where `caption`
   * is the field's label as `GFFormsModel::get_label` returns it.
   */
  function FormData(id: nat, caption: string, choices: seq<Choice>, stored: string): (r: seq<Entry<QuizValue>>)
    ensures Unique(r)
    ensures forall k :: k in FormDataKeys(id, caption) ==> Lookup(r, k) == Some(Value(choices, stored))
    ensures forall k :: k !in FormDataKeys(id, caption) ==> !HasKey(r, k)
  {
    SetAll([], FormDataKeys(id, caption), Value(choices, stored))
  }

  /** The field's id is always among the keys, as an integer key. */
  lemma FormDataHasIdKey(id: nat, caption: string, choices: seq<Choice>, stored: string)
    ensures Lookup(FormData(id, caption, choices, stored), IntKey(id)) == Some(Value(choices, stored))
  {
    assert IntKey(id) in FormDataKeys(id, caption);
  }

  /** A caption that is the id written out shares the id's key. */
  lemma NumericLabelSharesIdKey(id: nat)
    ensures PhpKey(Decimal(id)) == FormDataKeys(id, Decimal(id))[1]
  {
    DecimalKeyIsIntKey(id);
  }

  /**
   * With such a caption, `$label` and `$label . '_name'` repeat the keys
   * `$id` and `$id . '_name'`, so the six assignments leave four entries.
   */
  lemma NumericLabelLeavesFourEntries(id: nat, choices: seq<Choice>, stored: string)
    ensures |FormData(id, Decimal(id), choices, stored)| == 4
  {
    var sid := Decimal(id);
    var dotted, dottedName, idName := sid + "." + sid, sid + "." + sid + "_name", sid + "_name";
    assert dotted[|sid|] == '.' && dottedName[|sid|] == '.' && idName[|sid|] == '_';
    assert dottedName[|dottedName| - 5] == '_' && idName[|idName| - 5] == '_';
    DecimalKeyIsIntKey(id);
    DottedKeyIsStringKey(dotted);
    DottedKeyIsStringKey(dottedName);
    NamedKeyIsStringKey(idName);
    assert |dotted| != |dottedName| && |dottedName| != |idName|;
    var keys := {StrKey(dotted), IntKey(id), StrKey(dottedName), StrKey(idName)};
    assert FormDataKeys(id, sid) == [StrKey(dotted), IntKey(id), IntKey(id), StrKey(dottedName), StrKey(idName), StrKey(idName)];
    assert |keys| == 4;
    var r := FormData(id, sid, choices, stored);
    forall k
      ensures HasKey(r, k) <==> k in keys
    {
      assert Lookup(r, k).Some? <==> HasKey(r, k);
    }
    UniqueCount(r, keys);
  }
}

=== FILE: font_form.dfy ===
/**
 * The add/edit font form of the Font Manager
 * (`src/assets/js/react/components/FontManager/FontManagerBody.js`): the
 * component state, input validation, and the action each handler dispatches.
 * React's `setState` is modelled as returning the next form state.
 */
module FontForm {
  import opened Options
  import opened FontUtils

  /** A style slot: a stored path (`''` when empty) or a newly dropped file, which is an object. */
  datatype Style = Path(path: string) | Upload(file: string)

  /** JavaScript truthiness of a slot: any object, or a non-empty path. */
  predicate StyleTruthy(st: Style) {
    st.Upload? || st.path != ""
  }

  datatype Styles = Styles(regular: Style, italics: Style, bold: Style, bolditalics: Style)

  /** The keys of `fontStyles`, in the order `Object.keys` lists them. */
  const StyleKeys: seq<string> := ["regular", "italics", "bold", "bolditalics"]

  predicate IsStyleKey(key: string) {
    key == "regular" || key == "italics" || key == "bold" || key == "bolditalics"
  }

  function StyleAt(st: Styles, key: string): Style
    requires IsStyleKey(key)
  {
    if key == "regular" then st.regular
    else if key == "italics" then st.italics
    else if key == "bold" then st.bold
    else st.bolditalics
  }

  /** `{ ...fontStyles, [key]: value }`. */
  function WithStyle(st: Styles, key: string, value: Style): (r: Styles)
    requires IsStyleKey(key)
    ensures StyleAt(r, key) == value
    ensures forall k :: IsStyleKey(k) && k != key ==> StyleAt(r, k) == StyleAt(st, k)
  {
    if key == "regular" then st.(regular := value)
    else if key == "italics" then st.(italics := value)
    else if key == "bold" then st.(bold := value)
    else st.(bolditalics := value)
  }

  const EmptyStyles := Styles(Path(""), Path(""), Path(""), Path(""))

  /** The component state; `name` is its `label` field. */
  datatype Form = Form(name: string, styles: Styles, validateLabel: bool, validateRegular: bool)

  const InitialForm := Form("", EmptyStyles, true, true)

  /** A character `[0-9a-zA-Z ]`. */
  predicate LabelChar(c: char) {
    ('0' <= c <= '9') || ('a' <= c <= 'z') || ('A' <= c <= 'Z') || c == ' '
  }

  /** `/^[0-9a-zA-Z ]*$/.test(label)`. */
  function MatchesLabelPattern(name: string): (r: bool)
    ensures r <==> forall i :: 0 <= i < |name| ==> LabelChar(name[i])
  {
    if |name| == 0 then true
    else LabelChar(name[0]) && MatchesLabelPattern(name[1..])
  }

  /** The outcome of `validateInputFields` and the two flags it stores. */
  datatype Validation = Validation(valid: bool, validateLabel: bool, validateRegular: bool)

  function ValidateInputFields(name: string, regular: Style): (r: Validation)
    ensures r.validateLabel <==> name != "" && forall i :: 0 <= i < |name| ==> LabelChar(name[i])
    ensures r.validateRegular <==> StyleTruthy(regular)
    ensures r.valid <==> r.validateLabel && r.validateRegular
  {
    var labelField := MatchesLabelPattern(name) && name != "";
    var regularField := StyleTruthy(regular);
    Validation(labelField && regularField, labelField, regularField)
  }

  function WithValidation(f: Form, v: Validation): Form {
    f.(validateLabel := v.validateLabel, validateRegular := v.validateRegular)
  }

  /** What a handler dispatches. */
  datatype Effect =
    | ClearAddFontMsg
    | ClearDropzoneError(key: string)
    | AddFontRequest(name: string, styles: Styles)
    | EditFontRequest(id: string, name: string, changes: map<string, Style>)
    | NoDispatch
    // Reading a field of the `undefined` a failed font lookup yields.
    | TypeErrorThrown

  datatype Outcome = Outcome(form: Form, effect: Effect)

  /** `handleAddFont`. */
  function HandleAddFont(f: Form): (r: Outcome)
    ensures var v := ValidateInputFields(f.name, f.styles.regular);
      && r.form == WithValidation(f, v)
      && (r.effect.ClearAddFontMsg? <==> !v.valid)
      && (v.valid ==> r.effect == AddFontRequest(f.name, f.styles))
  {
    var v := ValidateInputFields(f.name, f.styles.regular);
    if !v.valid then Outcome(WithValidation(f, v), ClearAddFontMsg)
    else Outcome(WithValidation(f, v), AddFontRequest(f.name, f.styles))
  }

  /** A slot an edit sends: a new upload, or `''` to clear a stored file. */
  predicate Sendable(st: Style) {
    st.Upload? || st == Path("")
  }

  /** The `data` object `handleEditFont` builds from the slots. */
  function EditChanges(st: Styles): (r: map<string, Style>)
    ensures forall k :: k in r <==> IsStyleKey(k) && Sendable(StyleAt(st, k))
    ensures forall k :: k in r ==> r[k] == StyleAt(st, k)
  {
    map k | k in StyleKeys && Sendable(StyleAt(st, k)) :: StyleAt(st, k)
  }

  /** No font before index `i` has the id. */
  ghost predicate NoIdBefore(list: seq<Font>, id: string, i: int) {
    forall j :: 0 <= j < i && j < |list| ==> list[j].id != id
  }

  /** `fontList.filter(font => font.id === id)[0]`. */
  function FirstWithId(list: seq<Font>, id: string): (r: Option<Font>)
    ensures r.None? <==> forall i :: 0 <= i < |list| ==> list[i].id != id
    ensures r.Some? ==> r.value in list && r.value.id == id
    ensures r.Some? ==> exists i :: 0 <= i < |list| && list[i] == r.value && NoIdBefore(list, id, i)
  {
    if |list| == 0 then None
    else if list[0].id == id then
      assert NoIdBefore(list, id, 0);
      Some(list[0])
    else
      var rest := FirstWithId(list[1..], id);
      if rest.Some? then
        ghost var i :| 0 <= i < |list| - 1 && list[1..][i] == rest.value && NoIdBefore(list[1..], id, i);
        assert NoIdBefore(list, id, i + 1);
        rest
      else rest
  }

  /** The stored slots of a font, as the form holds them after loading it. */
  function StoredStyles(font: Font): Styles {
    Styles(Path(font.regular), Path(font.italics), Path(font.bold), Path(font.bolditalics))
  }

  /**
   * The no-change test: same label, and `JSON.stringify` of the slots equals
   * that of the stored paths. An upload serialises as `{}` and never equals a
   * string, so this is slot-wise equality with the stored paths.
   */
  predicate Unchanged(f: Form, font: Font) {
    f.name == font.fontName && f.styles == StoredStyles(font)
  }

  /** `handleEditFont`. */
  function HandleEditFont(f: Form, list: seq<Font>, id: string): (r: Outcome)
    ensures var v := ValidateInputFields(f.name, f.styles.regular);
      && r.form == WithValidation(f, v)
      && (r.effect.ClearAddFontMsg? <==> !v.valid)
      && (r.effect.TypeErrorThrown? <==> v.valid && forall i :: 0 <= i < |list| ==> list[i].id != id)
      && (r.effect.NoDispatch? <==>
            v.valid && FirstWithId(list, id).Some? && Unchanged(f, FirstWithId(list, id).value))
    ensures r.effect.EditFontRequest? ==>
      && r.effect.id == id
      && r.effect.name == f.name
      && (forall k :: k in r.effect.changes <==> IsStyleKey(k) && Sendable(StyleAt(f.styles, k)))
      && (forall k :: k in r.effect.changes ==> r.effect.changes[k] == StyleAt(f.styles, k))
    ensures !r.effect.AddFontRequest? && !r.effect.ClearDropzoneError?
  {
    var v := ValidateInputFields(f.name, f.styles.regular);
    var f' := WithValidation(f, v);
    if !v.valid then Outcome(f', ClearAddFontMsg)
    else
      match FirstWithId(list, id)
      case None => Outcome(f', TypeErrorThrown)
      case Some(current) =>
        if Unchanged(f, current) then Outcome(f', NoDispatch)
        else Outcome(f', EditFontRequest(id, f.name, EditChanges(f.styles)))
  }

  /** `handleSubmit`: a truthy route id means the form edits that font; otherwise it adds one. */
  function HandleSubmit(f: Form, id: Option<string>, list: seq<Font>): (r: Outcome)
    ensures Truthy(id) ==> r == HandleEditFont(f, list, id.value) && !r.effect.AddFontRequest?
    ensures !Truthy(id) ==> r == HandleAddFont(f) && !r.effect.EditFontRequest? && !r.effect.NoDispatch?
  {
    if Truthy(id) then HandleEditFont(f, list, id.value) else HandleAddFont(f)
  }

  /** `handleRemoveFontDetails`: an empty form with both warnings off. */
  function HandleRemoveFontDetails(f: Form): (r: Form)
    ensures r.name == ""
    ensures forall k :: IsStyleKey(k) ==> StyleAt(r.styles, k) == Path("")
    ensures r.validateLabel && r.validateRegular
  {
    InitialForm
  }

  /** `handleRequestFontDetails`: loads the first font with the id; `None` where the lookup throws. */
  function HandleRequestFontDetails(list: seq<Font>, id: string): (r: Option<Form>)
    ensures r.None? <==> forall i :: 0 <= i < |list| ==> list[i].id != id
    ensures r.Some? ==> Unchanged(r.value, FirstWithId(list, id).value)
    ensures r.Some? ==> r.value.validateLabel && r.value.validateRegular
  {
    match FirstWithId(list, id)
    case None => None
    case Some(font) => Some(Form(font.fontName, StoredStyles(font), true, true))
  }

  /** `handleUpload`: a dropped file fills one slot. */
  function HandleUpload(f: Form, key: string, file: string): (r: Form)
    requires IsStyleKey(key)
    ensures StyleAt(r.styles, key) == Upload(file)
    ensures forall k :: IsStyleKey(k) && k != key ==> StyleAt(r.styles, k) == StyleAt(f.styles, k)
    ensures r.name == f.name
    ensures r.validateLabel == f.validateLabel && r.validateRegular == f.validateRegular
  {
    f.(styles := WithStyle(f.styles, key, Upload(file)))
  }

  /**
   * `handleDeleteFontStyle`: empties one slot and turns the regular-file
   * warning off; when the add-font error is truthy (an object, or a
   * non-empty string) it also clears that variant's message.
   */
  function HandleDeleteFontStyle(f: Form, key: string, msg: Msg): (r: Outcome)
    requires IsStyleKey(key)
    ensures StyleAt(r.form.styles, key) == Path("")
    ensures forall k :: IsStyleKey(k) && k != key ==> StyleAt(r.form.styles, k) == StyleAt(f.styles, k)
    ensures r.form.validateRegular && r.form.name == f.name && r.form.validateLabel == f.validateLabel
    ensures r.effect == (if msg.error.Some? && AddFontTruthy(msg.error.value.addFont) then ClearDropzoneError(key) else NoDispatch)
  {
    var form := f.(styles := WithStyle(f.styles, key, Path("")), validateRegular := true);
    if msg.error.Some? && AddFontTruthy(msg.error.value.addFont) then Outcome(form, ClearDropzoneError(key))
    else Outcome(form, NoDispatch)
  }

  /** A cleared form fails validation on both fields, so submitting it only clears the message. */
  lemma ClearedFormDoesNotSubmit(f: Form)
    ensures var r := HandleAddFont(HandleRemoveFontDetails(f));
      r.effect == ClearAddFontMsg && !r.form.validateLabel && !r.form.validateRegular
  {
  }

  /** A font whose stored paths are all present. */
  predicate FullyStored(font: Font) {
    font.regular != "" && font.italics != "" && font.bold != "" && font.bolditalics != ""
  }

  /** Loading a valid font into the form and saving it at once sends nothing. */
  lemma LoadThenSaveIsNoChange(list: seq<Font>, id: string)
    requires FirstWithId(list, id).Some?
    requires ValidateInputFields(FirstWithId(list, id).value.fontName, Path(FirstWithId(list, id).value.regular)).valid
    ensures HandleEditFont(HandleRequestFontDetails(list, id).value, list, id).effect == NoDispatch
  {
  }

  /**
   * Saving a form that differs from a fully stored font in one sendable slot
   * sends exactly that slot, under the unchanged label.
   */
  lemma EditOneSlot(f: Form, list: seq<Font>, id: string, font: Font, key: string, value: Style)
    requires FirstWithId(list, id) == Some(font) && FullyStored(font)
    requires f.name == font.fontName
    requires ValidateInputFields(f.name, f.styles.regular).valid
    requires IsStyleKey(key) && Sendable(value) && StyleAt(f.styles, key) == value
    requires forall k :: IsStyleKey(k) && k != key ==> StyleAt(f.styles, k) == StyleAt(StoredStyles(font), k)
    ensures HandleEditFont(f, list, id).effect == EditFontRequest(id, font.fontName, map[key := value])
  {
    assert StyleAt(f.styles, key) != StyleAt(StoredStyles(font), key);
    var changes := EditChanges(f.styles);
    forall k | IsStyleKey(k) && k != key ensures !Sendable(StyleAt(f.styles, k)) {
      assert StyleAt(f.styles, k) == StyleAt(StoredStyles(font), k);
    }
    assert changes.Keys == {key};
    assert changes == map[key := value];
  }

  /**
   * Loading a fully stored font, emptying one optional slot and saving sends
   * exactly that slot as `''`, under the unchanged label.
   */
  lemma ClearOneSlotSendsOnlyIt(list: seq<Font>, id: string, key: string, msg: Msg)
    requires FirstWithId(list, id).Some?
    requires FullyStored(FirstWithId(list, id).value)
    requires ValidateInputFields(FirstWithId(list, id).value.fontName, Path(FirstWithId(list, id).value.regular)).valid
    requires IsStyleKey(key) && key != "regular"
    ensures var font := FirstWithId(list, id).value;
      var edited := HandleDeleteFontStyle(HandleRequestFontDetails(list, id).value, key, msg).form;
      HandleEditFont(edited, list, id).effect == EditFontRequest(id, font.fontName, map[key := Path("")])
  {
    var font := FirstWithId(list, id).value;
    var loaded := HandleRequestFontDetails(list, id).value;
    var edited := HandleDeleteFontStyle(loaded, key, msg).form;
    assert StyleAt(edited.styles, "regular") == StyleAt(loaded.styles, "regular");
    EditOneSlot(edited, list, id, font, key, Path(""));
  }

  /** Dropping a new file into a loaded font's slot and saving sends just that upload. */
  lemma UploadSendsOnlyTheUpload(list: seq<Font>, id: string, key: string, file: string)
    requires FirstWithId(list, id).Some?
    requires FullyStored(FirstWithId(list, id).value)
    requires ValidateInputFields(FirstWithId(list, id).value.fontName, Path(FirstWithId(list, id).value.regular)).valid
    requires IsStyleKey(key)
    ensures var font := FirstWithId(list, id).value;
      var edited := HandleUpload(HandleRequestFontDetails(list, id).value, key, file);
      HandleEditFont(edited, list, id).effect == EditFontRequest(id, font.fontName, map[key := Upload(file)])
  {
    var font := FirstWithId(list, id).value;
    var loaded := HandleRequestFontDetails(list, id).value;
    var edited := HandleUpload(loaded, key, file);
    assert key != "regular" ==> StyleAt(edited.styles, "regular") == StyleAt(loaded.styles, "regular");
    EditOneSlot(edited, list, id, font, key, Upload(file));
  }
}

=== FILE: font_reducer.dfy ===
/**
 * The Font Manager's Redux reducer
 * (`src/assets/js/react/reducers/fontManagerReducer.js`) as a total
 * transition function `Step(State, Action): State`.
 *
 * The model has value semantics: the source's in-place writes through shared
 * font and error objects are not part of it.
 */
module FontReducer {
  import opened Options
  import opened Text
  import opened Seqs
  import opened FontUtils

  /** `searchResult` is `None` when no search is active; `Some([])` is an active search with no hit. */
  datatype State = State(
    loading: bool,
    addFontLoading: bool,
    fontList: seq<Font>,
    searchResult: Option<seq<Font>>,
    msg: Msg)

  const InitialState := State(false, false, [], None, EmptyMsg)

  /**
   * The sixteen action types, plus any other type. `AddFont`, `EditFont` and
   * `DeleteFont` carry the request for the sagas; the reducer ignores it.
   */
  datatype Action =
    | GetCustomFontList
    | GetCustomFontListSuccess(fonts: seq<Font>)
    | GetCustomFontListError(message: string)
    | AddFont
    | AddFontSuccess(font: Font, message: string)
    | AddFontError(errors: FieldErrors)
    | EditFont
    | EditFontSuccess(font: Font, message: string)
    | EditFontError(errors: FieldErrors)
    | DeleteFont
    | DeleteFontSuccess(id: string)
    | DeleteFontError(message: string)
    | ClearAddFontMsg
    | ClearDropzoneError(key: string)
    | ResetSearchResult
    | SearchFontList(query: string)
    | Unrecognised(tag: string)

  /** `state.msg.error && state.msg.error.fontList` is truthy. */
  predicate HasFontListError(m: Msg) {
    m.error.Some? && Truthy(m.error.value.fontList)
  }

  /** The error object a spread `{ ...state.msg.error }` starts from. */
  function ErrorsOf(m: Msg): Errors {
    m.error.GetOr(NoErrors)
  }

  /** ADD_FONT_SUCCESS. */
  function OnAddFontSuccess(s: State, font: Font, message: string): (r: State)
    ensures !r.addFontLoading && r.loading == s.loading
    ensures HasFontListError(s.msg) ==>
      && r.fontList == s.fontList
      && r.searchResult == s.searchResult
      && r.msg == Msg(Some(message), s.msg.error)
    ensures !HasFontListError(s.msg) ==>
      && |r.fontList| == |s.fontList| + 1
      && r.fontList[..|s.fontList|] == s.fontList
      && r.fontList[|s.fontList|] == font
      && r.msg == Msg(Some(message), None)
      && (s.searchResult.Some? ==> r.searchResult == Some(r.fontList))
      && (s.searchResult.None? ==> r.searchResult.None?)
  {
    if HasFontListError(s.msg) then
      s.(addFontLoading := false, msg := s.msg.(success := Some(message)))
    else
      var updated := s.fontList + [font];
      s.(addFontLoading := false,
         fontList := updated,
         searchResult := if s.searchResult.Some? then Some(updated) else None,
         msg := Msg(Some(message), None))
  }

  /** ADD_FONT_ERROR and EDIT_FONT_ERROR. */
  function OnFieldError(s: State, errors: FieldErrors): (r: State)
    ensures !r.addFontLoading
    ensures r.fontList == s.fontList && r.searchResult == s.searchResult && r.loading == s.loading
    ensures r.msg.success == s.msg.success
    ensures r.msg.error.Some?
    ensures r.msg.error.value.addFont == Some(errors)
    ensures r.msg.error.value.fontList == ErrorsOf(s.msg).fontList
    ensures !Truthy(r.msg.error.value.deleteFont)
    ensures Truthy(ErrorsOf(s.msg).deleteFont) ==> r.msg.error.value.deleteFont.None?
    ensures !Truthy(ErrorsOf(s.msg).deleteFont) ==> r.msg.error.value.deleteFont == ErrorsOf(s.msg).deleteFont
  {
    var e := ErrorsOf(s.msg).(addFont := Some(errors));
    var e' := if Truthy(e.deleteFont) then e.(deleteFont := None) else e;
    s.(addFontLoading := false, msg := s.msg.(error := Some(e')))
  }

  /** EDIT_FONT_SUCCESS: the edited font is updated in the list and in an active search. */
  function OnEditFontSuccess(s: State, font: Font, message: string): (r: State)
    ensures !r.addFontLoading && r.loading == s.loading
    ensures r.fontList == FindAndUpdate(s.fontList, font)
    ensures s.searchResult.Some? ==> r.searchResult == Some(FindAndUpdate(s.searchResult.value, font))
    ensures s.searchResult.None? ==> r.searchResult.None?
    ensures r.msg == Msg(Some(message), None)
  {
    var msg := Msg(Some(message), None);
    if s.searchResult.Some? then
      s.(addFontLoading := false,
         fontList := FindAndUpdate(s.fontList, font),
         searchResult := Some(FindAndUpdate(s.searchResult.value, font)),
         msg := msg)
    else
      s.(addFontLoading := false, fontList := FindAndUpdate(s.fontList, font), msg := msg)
  }

  /** DELETE_FONT: clears the success message and a truthy delete error only. */
  function OnDeleteFont(s: State): (r: State)
    ensures r.fontList == s.fontList && r.searchResult == s.searchResult
    ensures r.loading == s.loading && r.addFontLoading == s.addFontLoading
    ensures r.msg.success.None?
    ensures r.msg.error.Some? <==> s.msg.error.Some?
    ensures r.msg.error.Some? ==>
      && r.msg.error.value.fontList == s.msg.error.value.fontList
      && r.msg.error.value.addFont == s.msg.error.value.addFont
      && !Truthy(r.msg.error.value.deleteFont)
      && (Truthy(s.msg.error.value.deleteFont) ==> r.msg.error.value.deleteFont.None?)
      && (!Truthy(s.msg.error.value.deleteFont) ==> r.msg.error.value.deleteFont == s.msg.error.value.deleteFont)
  {
    var error :=
      match s.msg.error
      case Some(e) => if Truthy(e.deleteFont) then Some(e.(deleteFont := None)) else Some(e)
      case None => None;
    s.(msg := Msg(None, error))
  }

  /** DELETE_FONT_SUCCESS: the id leaves the list and the search; a search it empties ends. */
  function OnDeleteFontSuccess(s: State, id: string): (r: State)
    ensures r.fontList == FindAndRemove(s.fontList, id)
    ensures forall f :: f in r.fontList ==> f.id != id
    ensures s.searchResult.None? ==> r.searchResult.None?
    ensures r.searchResult.Some? ==>
      && r.searchResult.value == FindAndRemove(s.searchResult.value, id)
      && r.searchResult.value != []
    ensures s.searchResult.Some? && FindAndRemove(s.searchResult.value, id) != [] ==> r.searchResult.Some?
    ensures r.msg == s.msg && r.loading == s.loading && r.addFontLoading == s.addFontLoading
  {
    if s.searchResult.Some? then
      var kept := FindAndRemove(s.searchResult.value, id);
      s.(fontList := FindAndRemove(s.fontList, id),
         searchResult := if |kept| == 0 then None else Some(kept))
    else
      s.(fontList := FindAndRemove(s.fontList, id))
  }

  /** DELETE_FONT_ERROR. */
  function OnDeleteFontError(s: State, message: string): (r: State)
    ensures r.msg.error.Some? && r.msg.error.value.deleteFont == Some(message)
    ensures r.msg.error.value.fontList == ErrorsOf(s.msg).fontList
    ensures r.msg.error.value.addFont == ErrorsOf(s.msg).addFont
    ensures r.msg.success == s.msg.success
    ensures r.fontList == s.fontList && r.searchResult == s.searchResult
    ensures r.loading == s.loading && r.addFontLoading == s.addFontLoading
  {
    s.(msg := s.msg.(error := Some(ErrorsOf(s.msg).(deleteFont := Some(message)))))
  }

  /**
   * CLEAR_DROPZONE_ERROR: spreads the add-font error into a fresh object and
   * drops one variant's entry. A string message spreads into its characters
   * under index keys, so the result is always an object.
   */
  function OnClearDropzoneError(s: State, key: string): (r: State)
    requires s.msg.error.Some?
    ensures r.msg.error.Some?
    ensures r.msg.error.value.addFont.Some? && r.msg.error.value.addFont.value.PerVariant?
    ensures key !in r.msg.error.value.addFont.value.messages
    ensures forall k :: k != key && k in Spread(s.msg.error.value.addFont) ==>
      k in r.msg.error.value.addFont.value.messages
      && r.msg.error.value.addFont.value.messages[k] == Spread(s.msg.error.value.addFont)[k]
    ensures r.msg.error.value.addFont.value.messages.Keys <= Spread(s.msg.error.value.addFont).Keys
    ensures r.msg.error.value.fontList == s.msg.error.value.fontList
    ensures r.msg.error.value.deleteFont == s.msg.error.value.deleteFont
    ensures r.msg.success == s.msg.success
    ensures r.fontList == s.fontList && r.searchResult == s.searchResult
    ensures r.loading == s.loading && r.addFontLoading == s.addFontLoading
  {
    var e := s.msg.error.value;
    var addFont := Spread(e.addFont) - {key};
    s.(msg := s.msg.(error := Some(e.(addFont := Some(PerVariant(addFont))))))
  }

  /** The footer shows the add-font error only while it is a string. */
  predicate ShowsFooterError(m: Msg) {
    m.error.Some? && m.error.value.addFont.Some? && m.error.value.addFont.value.Message?
  }

  /**
   * Clearing a drop zone while the add-font error is a string hides the
   * footer message: the error becomes an object holding the message's
   * characters under their indexes.
   */
  lemma ClearDropzoneOnMessage(s: State, key: string, text: string)
    requires s.msg.error.Some? && s.msg.error.value.addFont == Some(Message(text))
    requires exists c :: c in key && !IsDigit(c)
    ensures var r := Step(s, ClearDropzoneError(key));
      && ShowsFooterError(s.msg) && !ShowsFooterError(r.msg)
      && r.msg.error.value.addFont.value.messages.Keys == IndexKeys(|text|)
      && forall i :: 0 <= i < |text| ==> r.msg.error.value.addFont.value.messages[Decimal(i)] == [text[i]]
  {
    var r := Step(s, ClearDropzoneError(key));
    var m := r.msg.error.value.addFont.value.messages;
    var spread := SpreadString(text);
    assert m == spread - {key};
    var c :| c in key && !IsDigit(c);
    forall i | 0 <= i < |text| ensures Decimal(i) != key {
      assert c !in Decimal(i);
    }
    assert key !in IndexKeys(|text|);
  }

  /** A font with its four style paths replaced by their reduced file names. */
  function ReduceFont(f: Font): (r: Font)
    ensures r.id == f.id && r.fontName == f.fontName && r.shortname == f.shortname
    ensures r.useOTL == f.useOTL && r.useKashida == f.useKashida
    ensures r.regular == ReduceFontFileName(f.regular) && r.italics == ReduceFontFileName(f.italics)
    ensures r.bold == ReduceFontFileName(f.bold) && r.bolditalics == ReduceFontFileName(f.bolditalics)
    ensures '/' !in r.regular && '/' !in r.italics && '/' !in r.bold && '/' !in r.bolditalics
  {
    f.(regular := ReduceFontFileName(f.regular),
       italics := ReduceFontFileName(f.italics),
       bold := ReduceFontFileName(f.bold),
       bolditalics := ReduceFontFileName(f.bolditalics))
  }

  function ReduceAll(list: seq<Font>): (r: seq<Font>)
    ensures |r| == |list|
    ensures forall i :: 0 <= i < |list| ==> r[i] == ReduceFont(list[i])
  {
    seq(|list|, i requires 0 <= i < |list| => ReduceFont(list[i]))
  }

  /** The search test applied to a (reduced) font: its name or one of its style names contains the query. */
  predicate MatchesQuery(query: string, f: Font) {
    || CheckFontListIncludes(f.fontName, query)
    || CheckFontListIncludes(f.regular, query)
    || CheckFontListIncludes(f.italics, query)
    || CheckFontListIncludes(f.bold, query)
    || CheckFontListIncludes(f.bolditalics, query)
  }

  function QueryMatcher(query: string): Font -> bool {
    f => MatchesQuery(query, f)
  }

  /** SEARCH_FONT_LIST's result: the reduced fonts that match, in list order (possibly none). */
  function SearchFonts(list: seq<Font>, query: string): (r: seq<Font>)
    ensures forall f :: f in r ==> f in ReduceAll(list) && MatchesQuery(query, f)
    ensures forall i :: 0 <= i < |list| && MatchesQuery(query, ReduceFont(list[i])) ==> ReduceFont(list[i]) in r
    ensures IsSubsequence(r, ReduceAll(list))
    ensures list == [] ==> r == []
  {
    Filter(QueryMatcher(query), ReduceAll(list))
  }

  /**
   * The search visits the list in order and pushes each matching reduced
   * font once: one more font adds its reduced form exactly when it matches.
   */
  lemma SearchFontsAppend(list: seq<Font>, f: Font, query: string)
    ensures SearchFonts(list + [f], query)
         == SearchFonts(list, query) + (if MatchesQuery(query, ReduceFont(f)) then [ReduceFont(f)] else [])
  {
    assert ReduceAll(list + [f]) == ReduceAll(list) + [ReduceFont(f)];
    FilterSnoc(QueryMatcher(query), ReduceAll(list), ReduceFont(f));
  }

  /** CLEAR_DROPZONE_ERROR reads `state.msg.error.addFont`, which throws a TypeError when there is no error object. */
  predicate Throws(s: State, a: Action) {
    a.ClearDropzoneError? && s.msg.error.None?
  }

  /** The actions that can change `fontList`. */
  predicate ChangesList(a: Action) {
    a.GetCustomFontListSuccess? || a.AddFontSuccess? || a.EditFontSuccess? || a.DeleteFontSuccess?
  }

  /** The actions that start or end a font list request, the only ones that touch `loading`. */
  predicate ChangesLoading(a: Action) {
    a.GetCustomFontList? || a.GetCustomFontListSuccess? || a.GetCustomFontListError?
  }

  /** The add/edit request actions and their results, the only ones that touch `addFontLoading`. */
  predicate ChangesAddFontLoading(a: Action) {
    || a.AddFont? || a.AddFontSuccess? || a.AddFontError?
    || a.EditFont? || a.EditFontSuccess? || a.EditFontError?
  }

  /** The actions that can change `searchResult`. */
  predicate ChangesSearch(a: Action) {
    || a.AddFontSuccess? || a.EditFontSuccess? || a.DeleteFontSuccess?
    || a.ResetSearchResult? || a.SearchFontList?
  }

  /**
   * The reducer. Where it throws, the store keeps its previous state (the
   * exception reaches the dispatcher), so the step returns `s`.
   */
  function Step(s: State, a: Action): State
  {
    match a
    case GetCustomFontList => s.(loading := true, msg := EmptyMsg)
    case GetCustomFontListSuccess(fonts) => s.(loading := false, fontList := fonts)
    case GetCustomFontListError(message) =>
      s.(loading := false, msg := Msg(None, Some(NoErrors.(fontList := Some(message)))))
    case AddFont => s.(addFontLoading := true, msg := ClearMsg(s.msg))
    case AddFontSuccess(font, message) => OnAddFontSuccess(s, font, message)
    case AddFontError(errors) => OnFieldError(s, errors)
    // EDIT_FONT clears `msg` exactly as `clearMsg` does.
    case EditFont => s.(addFontLoading := true, msg := ClearMsg(s.msg))
    case EditFontSuccess(font, message) => OnEditFontSuccess(s, font, message)
    case EditFontError(errors) => OnFieldError(s, errors)
    case DeleteFont => OnDeleteFont(s)
    case DeleteFontSuccess(id) => OnDeleteFontSuccess(s, id)
    case DeleteFontError(message) => OnDeleteFontError(s, message)
    case ClearAddFontMsg => s.(msg := ClearMsg(s.msg))
    case ClearDropzoneError(key) => if s.msg.error.None? then s else OnClearDropzoneError(s, key)
    case ResetSearchResult => s.(searchResult := None)
    case SearchFontList(query) => s.(searchResult := Some(SearchFonts(s.fontList, query)))
    case Unrecognised(_) => s
  }

  /**
   * What each action leaves alone: only the request actions and their results
   * touch the two loading flags (a request sets its flag, a result clears it),
   * only the four list results change `fontList`, and only the list results,
   * RESET_SEARCH_RESULT and SEARCH_FONT_LIST change `searchResult`.
   */
  lemma StepFrames(s: State, a: Action)
    ensures var r := Step(s, a);
      && (!ChangesList(a) ==> r.fontList == s.fontList)
      && (!ChangesLoading(a) ==> r.loading == s.loading)
      && (ChangesLoading(a) ==> r.loading == a.GetCustomFontList?)
      && (!ChangesAddFontLoading(a) ==> r.addFontLoading == s.addFontLoading)
      && (ChangesAddFontLoading(a) ==> r.addFontLoading == (a.AddFont? || a.EditFont?))
      && (!ChangesSearch(a) ==> r.searchResult == s.searchResult)
  {
  }

  /** Dispatching a list of actions in order. */
  function Run(s: State, actions: seq<Action>): State
    decreases |actions|
  {
    if |actions| == 0 then s else Run(Step(s, actions[0]), actions[1..])
  }

  lemma RunPair(s: State, a: Action, b: Action)
    ensures Run(s, [a, b]) == Step(Step(s, a), b)
  {
    var actions := [a, b];
    assert actions[1..] == [b];
    assert Run(s, actions) == Run(Step(s, a), [b]);
    assert [b][1..] == [];
    assert Run(Step(s, a), [b]) == Run(Step(Step(s, a), b), []);
  }

  /** GET_CUSTOM_FONT_LIST: loading starts and every message is dropped. */
  lemma StepGetCustomFontList(s: State)
    ensures var r := Step(s, GetCustomFontList);
      r == s.(loading := true, msg := EmptyMsg) && r.msg.success.None? && r.msg.error.None?
  {
  }

  /** GET_CUSTOM_FONT_LIST_SUCCESS: loading ends and the list is replaced; the search and messages stay. */
  lemma StepGetCustomFontListSuccess(s: State, fonts: seq<Font>)
    ensures var r := Step(s, GetCustomFontListSuccess(fonts));
      && !r.loading && r.fontList == fonts
      && r.searchResult == s.searchResult && r.msg == s.msg && r.addFontLoading == s.addFontLoading
  {
  }

  /** GET_CUSTOM_FONT_LIST_ERROR: loading ends and `msg` holds only the list error. */
  lemma StepGetCustomFontListError(s: State, message: string)
    ensures var r := Step(s, GetCustomFontListError(message));
      && !r.loading
      && r.msg == Msg(None, Some(Errors(Some(message), None, None)))
      && (HasFontListError(r.msg) <==> message != "")
      && r.fontList == s.fontList && r.searchResult == s.searchResult && r.addFontLoading == s.addFontLoading
  {
  }

  /** ADD_FONT: the add request starts and the previous success and truthy add-font error are cleared. */
  lemma StepAddFont(s: State)
    ensures var r := Step(s, AddFont);
      && r.addFontLoading && r.msg == ClearMsg(s.msg)
      && r.loading == s.loading && r.fontList == s.fontList && r.searchResult == s.searchResult
  {
  }

  /** EDIT_FONT: the same as ADD_FONT. */
  lemma StepEditFont(s: State)
    ensures Step(s, EditFont) == Step(s, AddFont)
    ensures var r := Step(s, EditFont);
      r.addFontLoading && r.msg == ClearMsg(s.msg)
  {
  }

  /** CLEAR_ADD_FONT_MSG: only the message changes, as `clearMsg` makes it. */
  lemma StepClearAddFontMsg(s: State)
    ensures Step(s, ClearAddFontMsg) == s.(msg := ClearMsg(s.msg))
  {
  }

  /** RESET_SEARCH_RESULT: the search ends and nothing else changes. */
  lemma StepResetSearchResult(s: State)
    ensures Step(s, ResetSearchResult) == s.(searchResult := None)
  {
  }

  lemma StepAddFontSuccess(s: State, font: Font, message: string)
    ensures Step(s, AddFontSuccess(font, message)) == OnAddFontSuccess(s, font, message)
  {
  }

  /** SEARCH_FONT_LIST: an active search holding the hits, possibly none; the list and messages stay. */
  lemma StepSearchFontList(s: State, query: string)
    ensures Step(s, SearchFontList(query)).fontList == s.fontList
    ensures Step(s, SearchFontList(query)).searchResult == Some(SearchFonts(s.fontList, query))
    ensures Step(s, SearchFontList(query)).msg == s.msg
  {
    var a := SearchFontList(query);
    assert a.SearchFontList? && a.query == query;
  }

  lemma StepDeleteFontSuccess(s: State, id: string)
    ensures Step(s, DeleteFontSuccess(id)) == OnDeleteFontSuccess(s, id)
  {
  }

  /** Where the reducer throws (CLEAR_DROPZONE_ERROR without an error object), the store keeps the state. */
  lemma ThrowingStepKeepsState(s: State, a: Action)
    requires Throws(s, a)
    ensures Step(s, a) == s
  {
  }

  lemma StepEditFontSuccess(s: State, font: Font, message: string)
    ensures Step(s, EditFontSuccess(font, message)) == OnEditFontSuccess(s, font, message)
  {
  }

  /** Receiving the same edit twice leaves the state as receiving it once. */
  lemma EditFontSuccessIdempotent(s: State, font: Font, message: string)
    ensures var once := Step(s, EditFontSuccess(font, message));
      Step(once, EditFontSuccess(font, message)) == once
  {
    var once := Step(s, EditFontSuccess(font, message));
    StepEditFontSuccess(s, font, message);
    StepEditFontSuccess(once, font, message);
    FindAndUpdateIdempotent(s.fontList, font);
    if s.searchResult.Some? {
      FindAndUpdateIdempotent(s.searchResult.value, font);
    }
  }

  /**
   * Editing a font and then deleting it leaves the list and the search as
   * deleting it outright: the edit only touched fonts with that id.
   */
  lemma EditThenDeleteIsDelete(s: State, font: Font, message: string)
    ensures var r := Run(s, [EditFontSuccess(font, message), DeleteFontSuccess(font.id)]);
      var d := Step(s, DeleteFontSuccess(font.id));
      r.fontList == d.fontList && r.searchResult == d.searchResult
  {
    RunPair(s, EditFontSuccess(font, message), DeleteFontSuccess(font.id));
    StepEditFontSuccess(s, font, message);
    var edited := OnEditFontSuccess(s, font, message);
    StepDeleteFontSuccess(edited, font.id);
    StepDeleteFontSuccess(s, font.id);
    RemoveAfterUpdate(s.fontList, font);
    if s.searchResult.Some? {
      RemoveAfterUpdate(s.searchResult.value, font);
    }
  }

  lemma UnrecognisedUnchanged(s: State, tag: string)
    ensures Step(s, Unrecognised(tag)) == s
  {
  }

  /** Only the four list actions touch `fontList`: any run of other actions leaves it as it was. */
  lemma {:induction false} ListFrame(s: State, actions: seq<Action>)
    requires forall i :: 0 <= i < |actions| ==> !ChangesList(actions[i])
    ensures Run(s, actions).fontList == s.fontList
    decreases |actions|
  {
    if |actions| > 0 {
      assert Step(s, actions[0]).fontList == s.fontList;
      ListFrame(Step(s, actions[0]), actions[1..]);
    }
  }

  function Ids(list: seq<Font>): set<string> {
    set f | f in list :: f.id
  }

  /** The two handlers behind `AddThenDeleteRestores`, without the dispatch. */
  lemma AddThenRemoveFont(s: State, font: Font, message: string)
    requires !HasFontListError(s.msg)
    requires font.id !in Ids(s.fontList)
    ensures OnDeleteFontSuccess(OnAddFontSuccess(s, font, message), font.id).fontList == s.fontList
  {
    var s1 := OnAddFontSuccess(s, font, message);
    assert s1.fontList == s.fontList + [font];
    FindAndRemoveAppend(s.fontList, font, font.id);
    assert forall i :: 0 <= i < |s.fontList| ==> s.fontList[i].id != font.id by {
      forall i | 0 <= i < |s.fontList| ensures s.fontList[i].id != font.id {
        assert s.fontList[i] in s.fontList;
      }
    }
    FindAndRemoveAbsent(s.fontList, font.id);
  }

  /** Adding a new font and then deleting it by id restores the list. */
  lemma AddThenDeleteRestores(s: State, font: Font, message: string)
    requires !HasFontListError(s.msg)
    requires font.id !in Ids(s.fontList)
    ensures Run(s, [AddFontSuccess(font, message), DeleteFontSuccess(font.id)]).fontList == s.fontList
  {
    RunPair(s, AddFontSuccess(font, message), DeleteFontSuccess(font.id));
    StepAddFontSuccess(s, font, message);
    StepDeleteFontSuccess(OnAddFontSuccess(s, font, message), font.id);
    AddThenRemoveFont(s, font, message);
  }

  /** Every font in an active search has an id that is in the font list. */
  ghost predicate SearchIdsKnown(s: State) {
    s.searchResult.Some? ==> forall f :: f in s.searchResult.value ==> f.id in Ids(s.fontList)
  }

  /** Two lists with the same id at every index have the same ids. */
  lemma IdsPointwise(a: seq<Font>, b: seq<Font>)
    requires |a| == |b|
    requires forall i :: 0 <= i < |a| ==> a[i].id == b[i].id
    ensures Ids(a) == Ids(b)
  {
    forall x | x in Ids(a) ensures x in Ids(b) {
      var i :| 0 <= i < |a| && a[i].id == x;
      assert b[i] in b;
    }
    forall x | x in Ids(b) ensures x in Ids(a) {
      var i :| 0 <= i < |b| && b[i].id == x;
      assert a[i] in a;
    }
  }

  lemma IdsFindAndUpdate(list: seq<Font>, font: Font)
    ensures Ids(FindAndUpdate(list, font)) == Ids(list)
  {
    IdsPointwise(FindAndUpdate(list, font), list);
  }

  lemma IdsReduceAll(list: seq<Font>)
    ensures Ids(ReduceAll(list)) == Ids(list)
  {
    IdsPointwise(ReduceAll(list), list);
  }


  /**
   * Every action except a fresh GET_CUSTOM_FONT_LIST_SUCCESS keeps an active
   * search consistent with the font list.
   */
  lemma SearchIdsKnownPreserved(s: State, a: Action)
    requires SearchIdsKnown(s)
    requires !a.GetCustomFontListSuccess?
    ensures SearchIdsKnown(Step(s, a))
  {
    var r := Step(s, a);
    match a
    case EditFontSuccess(font, _) =>
      IdsFindAndUpdate(s.fontList, font);
      if r.searchResult.Some? {
        var sr := s.searchResult.value;
        var u := r.searchResult.value;
        forall f | f in u ensures f.id in Ids(r.fontList) {
          var i :| 0 <= i < |u| && u[i] == f;
          assert sr[i] in sr;
        }
      }
    case DeleteFontSuccess(id) =>
      if r.searchResult.Some? {
        forall f | f in r.searchResult.value ensures f.id in Ids(r.fontList) {
          assert f in s.searchResult.value;
          var g :| g in s.fontList && g.id == f.id;
          assert g.id != id;
          assert g in r.fontList;
        }
      }
    case SearchFontList(query) =>
      IdsReduceAll(s.fontList);
    case _ =>
  }

  /** The empty query matches every font: the search lists the whole (reduced) font list. */
  lemma SearchEmptyQueryListsAll(list: seq<Font>)
    ensures SearchFonts(list, "") == ReduceAll(list)
  {
    var all := ReduceAll(list);
    forall i | 0 <= i < |all| ensures MatchesQuery("", all[i]) {
      assert CheckFontListIncludes(all[i].fontName, "");
    }
    FilterKeepsAll(QueryMatcher(""), all);
  }

  /** A search with no hit is an active search with an empty result, not "no search". */
  lemma SearchWithoutHitIsEmpty(list: seq<Font>, query: string)
    requires forall i :: 0 <= i < |list| ==> !MatchesQuery(query, ReduceFont(list[i]))
    ensures SearchFonts(list, query) == []
  {
    var all := ReduceAll(list);
    assert forall i :: 0 <= i < |all| ==> !QueryMatcher(query)(all[i]);
    FilterKeepsNone(QueryMatcher(query), all);
  }

  /** A search is still a search after a deletion: what remains matches the query and lacks the id. */
  lemma DeleteDuringSearch(s: State, query: string, id: string)
    ensures var r := Run(s, [SearchFontList(query), DeleteFontSuccess(id)]);
      && r.fontList == FindAndRemove(s.fontList, id)
      && (r.searchResult.Some? ==>
            forall f :: f in r.searchResult.value ==> f.id != id && MatchesQuery(query, f))
  {
    RunPair(s, SearchFontList(query), DeleteFontSuccess(id));
    StepSearchFontList(s, query);
    StepDeleteFontSuccess(Step(s, SearchFontList(query)), id);
  }

  /** A failed add ends the loading state, reports the field errors and keeps a list error. */
  lemma AddFontThenError(s: State, errors: FieldErrors)
    ensures var r := Run(s, [AddFont, AddFontError(errors)]);
      && !r.addFontLoading
      && r.msg.success.None?
      && r.msg.error.Some? && r.msg.error.value.addFont == Some(errors)
      && r.msg.error.value.fontList == ErrorsOf(s.msg).fontList
      && r.fontList == s.fontList
  {
    RunPair(s, AddFont, AddFontError(errors));
  }
}

=== FILE: font_utils.dfy ===
/**
 * The Font Manager's data (fonts and the message object) and the list and
 * string helpers its reducer is built from
 * (`src/assets/js/react/utilities/fontManagerReducer.js`).
 */
module FontUtils {
  import opened Options
  import opened Text
  import opened Seqs

  /** One installed custom font; the four style fields are paths of uploaded `.ttf` files. */
  datatype Font = Font(
    id: string,
    fontName: string,
    shortname: string,
    regular: string,
    italics: string,
    bold: string,
    bolditalics: string,
    useOTL: int,
    useKashida: int)

  /** JavaScript truthiness of an optional string: present and not `''`. */
  predicate Truthy(o: Option<string>) {
    o.Some? && o.value != ""
  }

  /**
   * The add/edit error `msg.error.addFont`: the `message` of the REST error,
   * which is either a string (the footer shows it) or an object of messages
   * keyed by font variant (each drop zone shows its own).
   */
  datatype FieldErrors = Message(text: string) | PerVariant(messages: map<string, string>)

  /** JavaScript truthiness of the add-font error: any object, or a non-empty string. */
  predicate AddFontTruthy(o: Option<FieldErrors>) {
    o.Some? && (o.value.PerVariant? || o.value.text != "")
  }

  /** The index keys `'0'`, `'1'`, … of a string of length `n`. */
  function IndexKeys(n: nat): set<string> {
    set i | 0 <= i < n :: Decimal(i)
  }

  /** `{ ...s }` on a string: each character under its index, written in decimal. */
  function SpreadString(t: string): (r: map<string, string>)
    ensures forall i :: 0 <= i < |t| ==> Decimal(i) in r && r[Decimal(i)] == [t[i]]
    ensures r.Keys == IndexKeys(|t|)
  {
    DecimalInjective();
    map i | 0 <= i < |t| :: Decimal(i) := [t[i]]
  }

  /** `{ ...addFont }`: the entries an object spread copies out of the add-font error (none from `undefined`). */
  function Spread(o: Option<FieldErrors>): map<string, string> {
    match o
    case None => map[]
    case Some(PerVariant(m)) => m
    case Some(Message(t)) => SpreadString(t)
  }

  /** `msg.error`: one optional entry per operation. */
  datatype Errors = Errors(fontList: Option<string>, addFont: Option<FieldErrors>, deleteFont: Option<string>)

  const NoErrors := Errors(None, None, None)

  /** `msg`: `success` stands for `msg.success.addFont`; an absent key is `None`. */
  datatype Msg = Msg(success: Option<string>, error: Option<Errors>)

  const EmptyMsg := Msg(None, None)

  /** `findAndUpdate`: every font with the edited id takes the name and the four style paths of `font`. */
  function FindAndUpdate(list: seq<Font>, font: Font): (r: seq<Font>)
    ensures |r| == |list|
    ensures forall i :: 0 <= i < |list| ==>
      && r[i].id == list[i].id
      && r[i].shortname == list[i].shortname
      && r[i].useOTL == list[i].useOTL
      && r[i].useKashida == list[i].useKashida
    ensures forall i :: 0 <= i < |list| && list[i].id == font.id ==>
      && r[i].fontName == font.fontName
      && r[i].regular == font.regular
      && r[i].italics == font.italics
      && r[i].bold == font.bold
      && r[i].bolditalics == font.bolditalics
    ensures forall i :: 0 <= i < |list| && list[i].id != font.id ==> r[i] == list[i]
  {
    seq(|list|, i requires 0 <= i < |list| =>
      if list[i].id == font.id then
        list[i].(fontName := font.fontName, regular := font.regular, italics := font.italics,
                 bold := font.bold, bolditalics := font.bolditalics)
      else list[i])
  }

  lemma FindAndUpdateIdempotent(list: seq<Font>, font: Font)
    ensures FindAndUpdate(FindAndUpdate(list, font), font) == FindAndUpdate(list, font)
  {
  }

  predicate HasNotId(id: string, f: Font) {
    f.id != id
  }

  /** `findAndRemove`: the fonts whose id differs from `id`, in order. */
  function FindAndRemove(list: seq<Font>, id: string): (r: seq<Font>)
    ensures forall f :: f in r ==> f in list && f.id != id
    ensures forall i :: 0 <= i < |list| && list[i].id != id ==> list[i] in r
    ensures IsSubsequence(r, list)
  {
    Filter(f => HasNotId(id, f), list)
  }

  lemma FindAndRemoveIdempotent(list: seq<Font>, id: string)
    ensures FindAndRemove(FindAndRemove(list, id), id) == FindAndRemove(list, id)
  {
    FilterIdempotent(f => HasNotId(id, f), list);
  }

  /** Removing an id that is not in the list changes nothing, and only then. */
  lemma FindAndRemoveAbsent(list: seq<Font>, id: string)
    ensures FindAndRemove(list, id) == list <==> forall i :: 0 <= i < |list| ==> list[i].id != id
  {
    FilterKeepsAll(f => HasNotId(id, f), list);
  }

  lemma FindAndRemoveAppend(list: seq<Font>, font: Font, id: string)
    ensures FindAndRemove(list + [font], id)
         == FindAndRemove(list, id) + (if font.id == id then [] else [font])
  {
    FilterConcat(f => HasNotId(id, f), list, [font]);
  }

  /** Editing a font and then deleting it leaves the same list as deleting it outright. */
  lemma {:induction false} RemoveAfterUpdate(list: seq<Font>, font: Font)
    ensures FindAndRemove(FindAndUpdate(list, font), font.id) == FindAndRemove(list, font.id)
    decreases |list|
  {
    if |list| > 0 {
      var u := FindAndUpdate(list, font);
      assert u[1..] == FindAndUpdate(list[1..], font);
      RemoveAfterUpdate(list[1..], font);
    }
  }

  /**
   * `reduceFontFileName`: the file name after the last `/` (the whole key when
   * there is none, since `lastIndexOf` gives -1), with the first exact `.ttf`
   * removed, then lower-cased.
   */
  function ReduceFontFileName(key: string): (r: string)
    ensures '/' !in r
    ensures IsLowerCase(r)
    ensures |r| <= |key|
  {
    var name := AfterLast(key, '/');
    var stripped := ReplaceFirst(name, ".ttf", "");
    assert '/' !in stripped by {
      var i := IndexOf(name, ".ttf");
      if i != -1 {
        assert stripped == name[..i] + name[i + 4..];
      }
    }
    Lower(stripped)
  }

  /** When `name` holds no exact `.ttf`, the first one in `name + ".ttf" + rest` is the one after `name`. */
  lemma ReplaceFirstAfter(name: string, rest: string)
    requires !Contains(name, ".ttf")
    ensures ReplaceFirst(name + ".ttf" + rest, ".ttf", "") == name + rest
  {
    var tail := name + ".ttf" + rest;
    assert tail[|name|..|name| + 4] == ".ttf";
    assert OccursAt(tail, ".ttf", |name|);
    forall j | 0 <= j < |name|
      ensures !OccursAt(tail, ".ttf", j)
    {
      if j + 4 <= |name| {
        assert name[j..j + 4] == tail[j..j + 4];
        assert !OccursAt(name, ".ttf", j);
      } else {
        assert tail[j..j + 4][|name| - j] == tail[|name|] == '.';
      }
    }
    assert IndexOf(tail, ".ttf") == |name|;
    assert tail[..|name|] == name;
    assert tail[|name| + 4..] == rest;
  }

  /**
   * Whatever the directory, a key `dir/Name.ttf…` whose file name holds no
   * further `/` and no exact `.ttf` before the extension loses its directory
   * and that first `.ttf`, and is lower-cased.
   */
  lemma ReduceFontPathWithTail(dir: string, name: string, rest: string)
    requires '/' !in name + rest
    requires !Contains(name, ".ttf")
    ensures ReduceFontFileName(dir + "/" + name + ".ttf" + rest) == Lower(name + rest)
  {
    var file := name + ".ttf" + rest;
    assert dir + "/" + name + ".ttf" + rest == dir + ['/'] + file;
    AfterLastJoin(dir, '/', file);
    ReplaceFirstAfter(name, rest);
  }

  /** A stored font path `dir/Name.ttf` reduces to the lower-cased `Name`. */
  lemma ReduceFontPath(dir: string, name: string)
    requires '/' !in name
    requires !Contains(name, ".ttf")
    ensures ReduceFontFileName(dir + "/" + name + ".ttf") == Lower(name)
  {
    var key := dir + "/" + name + ".ttf";
    assert key == dir + ['/'] + (name + ".ttf");
    AfterLastJoin(dir, '/', name + ".ttf");
    ReplaceFirstAfter(name, "");
    assert name + ".ttf" + "" == name + ".ttf" && name + "" == name;
  }

  /**
   * A key without `/` is its own file name, and only the first exact `.ttf`
   * is removed from it: `a.ttf.ttf` reduces to `a.ttf`.
   */
  lemma ReduceStripsFirstExtensionOnly(name: string, rest: string)
    requires '/' !in name && '/' !in rest
    requires !Contains(name, ".ttf")
    ensures ReduceFontFileName(name + ".ttf" + rest) == Lower(name + rest)
  {
    AfterLastWithout(name + ".ttf" + rest, '/');
    ReplaceFirstAfter(name, rest);
  }

  lemma ReduceDoubleExtensionSplit()
    ensures ReduceFontFileName("a.ttf.ttf") == Lower("a" + ".ttf")
  {
    var ext := ".ttf";
    assert "a.ttf.ttf" == "a" + ext + ext;
    NotContainedWithoutFirstChar("a", ext);
    ReduceStripsFirstExtensionOnly("a", ext);
  }

  lemma LowerOfSingleExtension()
    ensures Lower("a" + ".ttf") == "a.ttf"
  {
    assert "a" + ".ttf" == "a.ttf";
    LowerOfLowerCase("a.ttf");
  }

  /** `a.ttf.ttf` keeps its second extension. */
  lemma ReduceDoubleExtension()
    ensures ReduceFontFileName("a.ttf.ttf") == "a.ttf"
  {
    ReduceDoubleExtensionSplit();
    LowerOfSingleExtension();
  }

  /** A path whose file name holds no exact `.ttf` reduces to the lower-cased file name. */
  lemma ReduceFontPathWithoutExtension(dir: string, name: string)
    requires '/' !in name
    requires !Contains(name, ".ttf")
    ensures ReduceFontFileName(dir + "/" + name) == Lower(name)
  {
    assert dir + "/" + name == dir + ['/'] + name;
    AfterLastJoin(dir, '/', name);
  }

  lemma NoExactExtensionInRoboto()
    ensures !Contains("Roboto.TTF", ".ttf")
  {
    var name := "Roboto.TTF";
    assert 'f' !in name;
    forall j ensures !OccursAt(name, ".ttf", j) {
      if 0 <= j && j + 4 <= |name| {
        assert name[j..j + 4][3] == name[j + 3];
      }
    }
  }

  lemma LowerRoboto()
    ensures Lower("Roboto.TTF") == "roboto.ttf"
  {
  }

  /** Only an exact, lower-case `.ttf` is stripped, and stripping happens before lower-casing. */
  lemma ReduceKeepsUpperCaseExtension()
    ensures ReduceFontFileName("fonts/Roboto.TTF") == "roboto.ttf"
  {
    var key := "fonts/Roboto.TTF";
    assert key == "fonts" + "/" + "Roboto.TTF";
    NoExactExtensionInRoboto();
    ReduceFontPathWithoutExtension("fonts", "Roboto.TTF");
    LowerRoboto();
  }

  /** `pat` occurs somewhere in `s`. */
  ghost predicate IsSubstring(pat: string, s: string) {
    exists i :: OccursAt(s, pat, i)
  }

  /** `checkFontListIncludes`: case-insensitive substring test. */
  function CheckFontListIncludes(font: string, query: string): (r: bool)
    ensures r <==> IsSubstring(Lower(query), Lower(font))
    ensures query == "" ==> r
  {
    if query == "" then assert OccursAt(Lower(font), Lower(query), 0); true
    else ContainsIgnoreCase(font, query)
  }

  /**
   * `clearMsg`: drops the success message and a truthy add-font error,
   * keeping every other entry; an empty string message stays.
   */
  function ClearMsg(m: Msg): (r: Msg)
    ensures r.success.None?
    ensures r.error.Some? <==> m.error.Some?
    ensures r.error.Some? ==>
      && !AddFontTruthy(r.error.value.addFont)
      && (AddFontTruthy(m.error.value.addFont) ==> r.error.value.addFont.None?)
      && (!AddFontTruthy(m.error.value.addFont) ==> r.error.value.addFont == m.error.value.addFont)
      && r.error.value.fontList == m.error.value.fontList
      && r.error.value.deleteFont == m.error.value.deleteFont
  {
    match m.error
    case None => Msg(None, None)
    case Some(e) => Msg(None, Some(if AddFontTruthy(e.addFont) then e.(addFont := None) else e))
  }

  lemma ClearMsgIdempotent(m: Msg)
    ensures ClearMsg(ClearMsg(m)) == ClearMsg(m)
  {
  }
}

=== FILE: options.dfy ===
/** Optional values: JavaScript's `null`/absent key and PHP's unset key. */
module Options {

  datatype Option<+T> = None | Some(value: T) {

    /** The wrapped value, or `default` when there is none (PHP's `??`). */
    function GetOr(default: T): T {
      match this
      case Some(v) => v
      case None => default
    }
  }

  /** Success or failure of a host call, e.g. a settings lookup that may yield a `WP_Error`. */
  datatype Result<+T, +E> = Success(value: T) | Failure(error: E)
}

=== FILE: php_array.dfy ===
/**
 * PHP's ordered array, the container behind every hook payload in
 * `src/bootstrap.php`: entries keep insertion order, a string key is
 * overwritten in place, `$a[] = v` appends under the next integer key, and
 * `array_merge` renumbers integer keys while string keys of the right-hand
 * array overwrite those of the left.
 */
module PhpArray {
  import opened Options

  datatype Key = IntKey(i: int) | StrKey(s: string)

  datatype Entry<V> = Entry(key: Key, val: V)

  predicate HasKey<V>(a: seq<Entry<V>>, k: Key) {
    a != [] && (a[0].key == k || HasKey(a[1..], k))
  }

  /** Every well-formed PHP array: no key appears twice. */
  predicate Unique<V>(a: seq<Entry<V>>) {
    a == [] || (!HasKey(a[1..], a[0].key) && Unique(a[1..]))
  }

  function Values<V>(a: seq<Entry<V>>): seq<V> {
    if a == [] then [] else [a[0].val] + Values(a[1..])
  }

  /** `$a[$k]`, or `None` when `isset` would fail. */
  function Lookup<V>(a: seq<Entry<V>>, k: Key): (r: Option<V>)
    ensures r.Some? <==> HasKey(a, k)
  {
    if a == [] then None
    else if a[0].key == k then Some(a[0].val)
    else Lookup(a[1..], k)
  }

  lemma {:induction false} HasKeyConcat<V>(a: seq<Entry<V>>, b: seq<Entry<V>>, k: Key)
    ensures HasKey(a + b, k) <==> HasKey(a, k) || HasKey(b, k)
  {
    if a != [] {
      assert (a + b)[1..] == a[1..] + b;
      HasKeyConcat(a[1..], b, k);
    } else {
      assert a + b == b;
    }
  }

  lemma {:induction false} ValuesConcat<V>(a: seq<Entry<V>>, b: seq<Entry<V>>)
    ensures Values(a + b) == Values(a) + Values(b)
  {
    if a == [] {
      assert a + b == b;
    } else {
      assert (a + b)[1..] == a[1..] + b;
      ValuesConcat(a[1..], b);
    }
  }

  lemma ValuesSnoc<V>(a: seq<Entry<V>>, e: Entry<V>)
    ensures Values(a + [e]) == Values(a) + [e.val]
  {
    ValuesConcat(a, [e]);
    assert Values([e]) == [e.val];
  }

  lemma {:induction false} HasKeyAt<V>(a: seq<Entry<V>>, k: Key)
    ensures HasKey(a, k) <==> exists i :: 0 <= i < |a| && a[i].key == k
  {
    if a != [] {
      HasKeyAt(a[1..], k);
      if HasKey(a[1..], k) {
        var i :| 0 <= i < |a[1..]| && a[1..][i].key == k;
        assert a[i + 1].key == k;
      }
      if exists i :: 0 <= i < |a| && a[i].key == k {
        var i :| 0 <= i < |a| && a[i].key == k;
        if i > 0 {
          assert a[1..][i - 1].key == k;
        }
      }
    }
  }

  /** Keys that differ pairwise by position make a well-formed array. */
  lemma {:induction false} UniqueByIndex<V>(a: seq<Entry<V>>)
    requires forall i, j :: 0 <= i < j < |a| ==> a[i].key != a[j].key
    ensures Unique(a)
  {
    if a != [] {
      forall i | 0 <= i < |a| - 1
        ensures a[1..][i].key != a[0].key
      {
        assert a[1..][i] == a[i + 1];
      }
      HasKeyAt(a[1..], a[0].key);
      UniqueByIndex(a[1..]);
    }
  }

  /** In a well-formed `a + b`, the first key of `b` is not a key of `a`. */
  lemma {:induction false} UniqueConcatHead<V>(a: seq<Entry<V>>, b: seq<Entry<V>>)
    requires b != [] && Unique(a + b)
    ensures !HasKey(a, b[0].key)
  {
    if a != [] {
      assert (a + b)[1..] == a[1..] + b;
      HasKeyConcat(a[1..], b, a[0].key);
      assert HasKey(b, b[0].key);
      UniqueConcatHead(a[1..], b);
    }
  }

  /** Appending one entry keeps the keys distinct exactly when its key is new. */
  lemma {:induction false} UniqueAppend<V>(a: seq<Entry<V>>, e: Entry<V>)
    ensures Unique(a + [e]) <==> Unique(a) && !HasKey(a, e.key)
  {
    if a != [] {
      assert (a + [e])[1..] == a[1..] + [e];
      HasKeyConcat(a[1..], [e], a[0].key);
      HasKeyConcat(a[1..], [e], e.key);
      UniqueAppend(a[1..], e);
    }
  }

  /** A well-formed array has exactly as many entries as it has keys. */
  lemma {:induction false} UniqueCount<V>(a: seq<Entry<V>>, keys: set<Key>)
    requires Unique(a)
    requires forall k :: HasKey(a, k) <==> k in keys
    ensures |a| == |keys|
  {
    if a == [] {
      assert forall k :: k !in keys;
    } else {
      var rest := keys - {a[0].key};
      assert HasKey(a, a[0].key);
      forall k
        ensures HasKey(a[1..], k) <==> k in rest
      {
        assert HasKey(a, k) <==> a[0].key == k || HasKey(a[1..], k);
      }
      UniqueCount(a[1..], rest);
    }
  }

  /** `$a[$k] = $v`: overwrite in place when the key exists, append otherwise. */
  function Set<V>(a: seq<Entry<V>>, k: Key, v: V): (r: seq<Entry<V>>)
    ensures Lookup(r, k) == Some(v)
    ensures forall k' :: k' != k ==> Lookup(r, k') == Lookup(a, k')
    ensures forall k' :: HasKey(r, k') <==> HasKey(a, k') || k' == k
    ensures HasKey(a, k) ==> |r| == |a|
    ensures !HasKey(a, k) ==> r == a + [Entry(k, v)]
    ensures Unique(a) ==> Unique(r)
    ensures HasKey(a, k) ==> exists i :: 0 <= i < |a| && a[i].key == k && r == a[i := Entry(k, v)]
  {
    if a == [] then [Entry(k, v)]
    else if a[0].key == k then
      assert ([Entry(k, v)] + a[1..])[1..] == a[1..];
      assert [Entry(k, v)] + a[1..] == a[0 := Entry(k, v)];
      [Entry(k, v)] + a[1..]
    else
      var rest := Set(a[1..], k, v);
      assert ([a[0]] + rest)[1..] == rest;
      assert a == [a[0]] + a[1..];
      assert HasKey(a, k) ==> exists i :: 0 <= i < |a| && a[i].key == k && [a[0]] + rest == a[i := Entry(k, v)] by {
        if HasKey(a, k) {
          var j :| 0 <= j < |a[1..]| && a[1..][j].key == k && rest == a[1..][j := Entry(k, v)];
          assert [a[0]] + rest == a[j + 1 := Entry(k, v)];
        }
      }
      [a[0]] + rest
  }

  /** The key `$a[] = …` uses: one past the largest integer key, and never below 0. */
  function NextIndex<V>(a: seq<Entry<V>>): (r: int)
    ensures r >= 0
    ensures forall i :: HasKey(a, IntKey(i)) ==> i < r
  {
    if a == [] then 0
    else
      var rest := NextIndex(a[1..]);
      if a[0].key.IntKey? && a[0].key.i + 1 > rest then a[0].key.i + 1 else rest
  }

  /** `$a[] = $v`. */
  function Push<V>(a: seq<Entry<V>>, v: V): (r: seq<Entry<V>>)
    ensures |r| == |a| + 1 && r[..|a|] == a && r[|a|].val == v && r[|a|].key.IntKey?
    ensures r[|a|].key.i >= 0 && !HasKey(a, r[|a|].key)
    ensures Values(r) == Values(a) + [v]
    ensures forall s :: HasKey(r, StrKey(s)) <==> HasKey(a, StrKey(s))
    ensures Unique(a) ==> Unique(r)
  {
    var e := Entry(IntKey(NextIndex(a)), v);
    ValuesConcat(a, [e]);
    assert Values([e]) == [v];
    UniqueAppend(a, e);
    forall s
      ensures HasKey(a + [e], StrKey(s)) <==> HasKey(a, StrKey(s))
    {
      HasKeyConcat(a, [e], StrKey(s));
    }
    a + [e]
  }

  /** A PHP list literal `array(x0, x1, …)`. */
  function FromList<V>(s: seq<V>): (r: seq<Entry<V>>)
    ensures Values(r) == s
    ensures Unique(r)
    ensures forall s :: !HasKey(r, StrKey(s))
  {
    if s == [] then []
    else
      assert s == s[..|s| - 1] + [s[|s| - 1]];
      Push(FromList(s[..|s| - 1]), s[|s| - 1])
  }

  /** One step of `array_merge`: integer keys are renumbered, string keys overwrite. */
  function MergeEntry<V>(acc: seq<Entry<V>>, e: Entry<V>): seq<Entry<V>> {
    if e.key.IntKey? then Push(acc, e.val) else Set(acc, e.key, e.val)
  }

  function MergeInto<V>(acc: seq<Entry<V>>, b: seq<Entry<V>>): seq<Entry<V>>
    decreases |b|
  {
    if b == [] then acc else MergeInto(MergeEntry(acc, b[0]), b[1..])
  }

  /** `array_merge($a, $b)`. */
  function Merge<V>(a: seq<Entry<V>>, b: seq<Entry<V>>): seq<Entry<V>> {
    MergeInto(MergeInto([], a), b)
  }

  /** No string key of `b` is already a key of `a`. */
  ghost predicate Disjoint<V>(a: seq<Entry<V>>, b: seq<Entry<V>>) {
    forall s :: HasKey(b, StrKey(s)) ==> !HasKey(a, StrKey(s))
  }

  /** One merge step with an integer key or a new string key appends exactly that value. */
  lemma MergeEntryAppends<V>(acc: seq<Entry<V>>, e: Entry<V>)
    requires Unique(acc) && (e.key.StrKey? ==> !HasKey(acc, e.key))
    ensures Values(MergeEntry(acc, e)) == Values(acc) + [e.val]
    ensures Unique(MergeEntry(acc, e))
    ensures forall s :: HasKey(MergeEntry(acc, e), StrKey(s)) <==> HasKey(acc, StrKey(s)) || e.key == StrKey(s)
  {
    if e.key.StrKey? {
      ValuesConcat(acc, [e]);
      assert Values([e]) == [e.val];
    }
  }

  /**
   * Merging entries whose string keys are all new appends their values in
   * order, keeps the keys distinct, and adds exactly their string keys.
   */
  lemma {:induction false} MergeIntoAppends<V>(acc: seq<Entry<V>>, b: seq<Entry<V>>)
    requires Unique(acc) && Unique(b) && Disjoint(acc, b)
    ensures Values(MergeInto(acc, b)) == Values(acc) + Values(b)
    ensures Unique(MergeInto(acc, b))
    ensures forall s :: HasKey(MergeInto(acc, b), StrKey(s)) <==> HasKey(acc, StrKey(s)) || HasKey(b, StrKey(s))
    decreases |b|
  {
    if b != [] {
      var e := b[0];
      if e.key.StrKey? {
        assert HasKey(b, e.key);
      }
      MergeEntryAppends(acc, e);
      var next := MergeEntry(acc, e);
      forall s | HasKey(b[1..], StrKey(s))
        ensures !HasKey(next, StrKey(s))
      {
        assert HasKey(b, StrKey(s));
        assert StrKey(s) != e.key;
      }
      MergeIntoAppends(next, b[1..]);
      assert MergeInto(acc, b) == MergeInto(next, b[1..]);
      assert Values(b) == [e.val] + Values(b[1..]);
    }
  }

  /**
   * `array_merge($a, $b)` of two well-formed arrays that share no string key
   * lists the values of `a` and then those of `b`, with distinct keys.
   */
  lemma {:induction false} MergeAppends<V>(a: seq<Entry<V>>, b: seq<Entry<V>>)
    requires Unique(a) && Unique(b) && Disjoint(a, b)
    ensures Values(Merge(a, b)) == Values(a) + Values(b)
    ensures Unique(Merge(a, b))
  {
    var empty: seq<Entry<V>> := [];
    MergeIntoAppends(empty, a);
    var left := MergeInto(empty, a);
    assert Values(left) == Values(a);
    forall s | HasKey(b, StrKey(s))
      ensures !HasKey(left, StrKey(s))
    {
      assert !HasKey(a, StrKey(s));
    }
    MergeIntoAppends(left, b);
  }

  /**
   * Merging a string key that `a` already holds overwrites it in place rather
   * than appending: the entry keeps its position and every other entry stays.
   */
  lemma MergeOverwrites<V>(a: seq<Entry<V>>, k: string, v: V)
    requires HasKey(a, StrKey(k))
    ensures Lookup(MergeInto(a, [Entry(StrKey(k), v)]), StrKey(k)) == Some(v)
    ensures |MergeInto(a, [Entry(StrKey(k), v)])| == |a|
    ensures MergeInto(a, [Entry(StrKey(k), v)]) == Set(a, StrKey(k), v)
    ensures exists i :: 0 <= i < |a| && a[i].key == StrKey(k) && MergeInto(a, [Entry(StrKey(k), v)]) == a[i := Entry(StrKey(k), v)]
  {
    assert [Entry(StrKey(k), v)][1..] == [];
  }
}

=== FILE: seqs.dfy ===
/**
 * Order-preserving filtering of lists: JavaScript's `Array.prototype.filter`
 * and PHP's `foreach`/`unset` loops that drop elements from a list.
 */
module Seqs {

  /** `s` is obtained from `t` by deleting elements without reordering the rest. */
  ghost predicate IsSubsequence<T>(s: seq<T>, t: seq<T>)
    decreases |t|
  {
    || |s| == 0
    || (&& |t| > 0
        && ((s[0] == t[0] && IsSubsequence(s[1..], t[1..])) || IsSubsequence(s, t[1..])))
  }

  /** The elements of `s` satisfying `p`, in their original order. */
  function Filter<T>(p: T -> bool, s: seq<T>): (r: seq<T>)
    ensures |r| <= |s|
    ensures forall x :: x in r ==> x in s && p(x)
    ensures forall i :: 0 <= i < |s| && p(s[i]) ==> s[i] in r
    ensures IsSubsequence(r, s)
  {
    if |s| == 0 then []
    else if p(s[0]) then [s[0]] + Filter(p, s[1..])
    else Filter(p, s[1..])
  }

  lemma {:induction false} FilterConcat<T>(p: T -> bool, a: seq<T>, b: seq<T>)
    ensures Filter(p, a + b) == Filter(p, a) + Filter(p, b)
    decreases |a|
  {
    if |a| == 0 {
      assert a + b == b;
    } else {
      assert (a + b)[1..] == a[1..] + b;
      FilterConcat(p, a[1..], b);
    }
  }

  /** Filtering a list extended by one element extends the result by that element when it passes. */
  lemma FilterSnoc<T>(p: T -> bool, s: seq<T>, x: T)
    ensures Filter(p, s + [x]) == Filter(p, s) + (if p(x) then [x] else [])
  {
    FilterConcat(p, s, [x]);
    assert [x][1..] == [];
    assert Filter(p, [x]) == (if p(x) then [x] else []) by {
      assert Filter(p, [x][1..]) == [];
    }
  }

  /** Filtering keeps every element exactly when all of them pass. */
  lemma {:induction false} FilterKeepsAll<T>(p: T -> bool, s: seq<T>)
    ensures Filter(p, s) == s <==> forall i :: 0 <= i < |s| ==> p(s[i])
    decreases |s|
  {
    if |s| > 0 {
      FilterKeepsAll(p, s[1..]);
      if !p(s[0]) {
        assert |Filter(p, s)| < |s|;
      } else {
        assert forall i :: 1 <= i < |s| ==> s[1..][i - 1] == s[i];
      }
    }
  }

  lemma {:induction false} FilterKeepsNone<T>(p: T -> bool, s: seq<T>)
    requires forall i :: 0 <= i < |s| ==> !p(s[i])
    ensures Filter(p, s) == []
    decreases |s|
  {
    if |s| > 0 {
      assert !p(s[0]);
      FilterKeepsNone(p, s[1..]);
    }
  }

  lemma {:induction false} FilterIdempotent<T>(p: T -> bool, s: seq<T>)
    ensures Filter(p, Filter(p, s)) == Filter(p, s)
  {
    var r := Filter(p, s);
    forall i | 0 <= i < |r|
      ensures p(r[i])
    {
      assert r[i] in r;
    }
    FilterKeepsAll(p, r);
  }

  /** Splitting a list by a predicate and by its negation `q` loses and duplicates nothing. */
  lemma {:induction false} FilterPartitionCount<T>(p: T -> bool, q: T -> bool, s: seq<T>)
    requires forall x :: q(x) == !p(x)
    ensures |Filter(p, s)| + |Filter(q, s)| == |s|
    decreases |s|
  {
    if |s| > 0 {
      FilterPartitionCount(p, q, s[1..]);
    }
  }
}

=== FILE: system_report.dfy ===
/**
 * The Gravity PDF part of Gravity Forms' system report
 * (`src/Model/Model_System_Report.php`): a fixed skeleton of one section and
 * four tables, the items filled into it, the relocation of Gravity PDF
 * plugins from the "Active Plugins" table to the add-ons table, and the
 * per-item export shape. Table items are PHP arrays keyed by item id.
 * Everything the report reads from the environment (ini values, directory
 * tests, options, rendered icons) is a field of `Env`; `esc_html__` is the
 * identity.
 */
module SystemReport {
  import opened Options
  import opened Text
  import opened Seqs
  import opened PhpArray

  /** One report row; `name` is the row's `label`. */
  datatype Item = Item(name: string, value: string, valueExport: Option<string>)

  datatype Table = Table(title: string, titleExport: string, items: seq<Entry<Item>>)

  datatype Section = Section(title: string, titleExport: string, tables: seq<Table>)

  type Report = seq<Section>

  const TitleExportPrefix := "Gravity PDF - "

  function PlainTable(title: string): Table {
    Table(title, TitleExportPrefix + title, [])
  }

  /** `get_report_structure`: one section holding four empty tables. */
  function GetReportStructure(): (r: Report)
    ensures |r| == 1 && |r[0].tables| == 4
    ensures forall i :: 0 <= i < 4 ==> r[0].tables[i].items == []
    ensures forall i :: 0 <= i < 4 ==>
      var t := r[0].tables[i];
      |TitleExportPrefix| <= |t.titleExport| && t.titleExport[..|TitleExportPrefix|] == TitleExportPrefix
  {
    var tables := [PlainTable("PHP"), PlainTable("Directories and Permissions"), PlainTable("Global Settings"), PlainTable("Security Settings")];
    [Section("Gravity PDF Environment", "Gravity PDF Environment", tables)]
  }

  /** What the report reads from the environment and from the plugin's options. */
  datatype Env = Env(
    ram: string,                        // `get_ram( memory_limit )`, in MB
    memoryMarkup: string,               // `memory_limit_markup( ram )`
    allowUrlFopen: bool,
    allowUrlFopenMarkup: string,
    defaultCharset: string,             // `ini_get( 'default_charset' )`, `''` when unset
    internalEncoding: string,           // `ini_get( 'internal_encoding' )`, `''` when unset
    templateLocation: string,
    templateLocationUrl: string,
    fontLocation: string,
    tmpLocation: string,
    mpdfTmpLocation: string,
    tmpWritable: bool,
    writableIcon: string,               // `get_icon( tmpWritable )`
    tmpProtected: bool,
    protectedMarkup: string,            // `get_temp_folder_protected( tmpProtected )`
    onIcon: string,                     // `get_icon( true )`
    options: map<string, string>,       // the plugin's scalar options
    adminCapabilities: Option<seq<string>>)

  /** PHP's truthiness of a string: everything except `''` and `'0'`. */
  predicate PhpTruthy(s: string) {
    s != "" && s != "0"
  }

  /** `get_option( key )` for a scalar option; an unset option reads as `''`. */
  function GetOption(env: Env, key: string): string {
    if key in env.options then env.options[key] else ""
  }

  function YesNo(b: bool): string {
    if b then "Yes" else "No"
  }

  function WritableText(b: bool): string {
    if b then "Writable" else "Not writable"
  }

  /** `implode( sep, parts )`. */
  function Join(sep: string, parts: seq<string>): (r: string)
    ensures |parts| == 1 ==> r == parts[0]
    ensures parts == [] ==> r == ""
  {
    if parts == [] then ""
    else if |parts| == 1 then parts[0]
    else parts[0] + sep + Join(sep, parts[1..])
  }

  function Plain(id: string, name: string, value: string): Entry<Item> {
    Entry(StrKey(id), Item(name, value, None))
  }

  function Exported(id: string, name: string, value: string, exported: string): Entry<Item> {
    Entry(StrKey(id), Item(name, value, Some(exported)))
  }

  /** The value shown for `internal_encoding`: the charset stands in when it is falsy. */
  function InternalEncoding(env: Env): (r: string)
    ensures PhpTruthy(env.internalEncoding) ==> r == env.internalEncoding
    ensures !PhpTruthy(env.internalEncoding) ==> r == env.defaultCharset
  {
    if PhpTruthy(env.internalEncoding) then env.internalEncoding else env.defaultCharset
  }

  function PhpItems(env: Env): seq<Entry<Item>> {
    [ Exported("memory", "WP Memory", env.memoryMarkup, env.ram + "MB"),
      Exported("allow_url_fopen", "allow_url_fopen", env.allowUrlFopenMarkup, YesNo(env.allowUrlFopen)),
      Plain("default_charset", "Default Charset", env.defaultCharset),
      Plain("internal_encoding", "Internal Encoding", InternalEncoding(env)) ]
  }

  function DirectoryItems(env: Env): seq<Entry<Item>> {
    [ Plain("pdf_working_directory", "PDF Working Directory", env.templateLocation),
      Plain("pdf_working_directory_url", "PDF Working Directory URL", env.templateLocationUrl),
      Plain("font_folder_location", "Font Folder location", env.fontLocation),
      Plain("temp_folder_location", "Temporary Folder location", env.tmpLocation),
      Exported("temp_folder_permission", "Temporary Folder permissions",
               WritableText(env.tmpWritable) + env.writableIcon, WritableText(env.tmpWritable)),
      Exported("temp_folder_protected", "Temporary Folder protected", env.protectedMarkup, YesNo(env.tmpProtected)),
      Plain("mpdf_temp_folder_location", "mPDF Temporary location", env.mpdfTmpLocation) ]
  }

  /** The entry-list action reads "View" only for exactly `View`; anything else reads "Download". */
  function EntryListAction(option: string): (r: string)
    ensures r == "View" <==> option == "View"
    ensures r != "View" ==> r == "Download"
  {
    if option == "View" then "View" else "Download"
  }

  function OnOff(env: Env, option: string): string {
    if option == "Yes" then env.onIcon else "Off"
  }

  function GlobalItems(env: Env): seq<Entry<Item>> {
    var action := GetOption(env, "default_action");
    var background := GetOption(env, "background_processing");
    var debug := GetOption(env, "debug_mode");
    [ Exported("pdf_entry_list_action", "PDF Entry List Action", EntryListAction(action), action),
      Exported("background_processing_enabled", "Background Processing", OnOff(env, background), background),
      Exported("debug_mode_enabled", "Debug Mode", OnOff(env, debug), debug) ]
  }

  const DefaultCapabilities: seq<string> := ["gravityforms_view_entries"]

  function SecurityItems(env: Env): seq<Entry<Item>> {
    var timeout := GetOption(env, "logged_out_timeout");
    [ Plain("user_restrictions", "User Restrictions", Join(", ", env.adminCapabilities.GetOr(DefaultCapabilities))),
      Exported("logged_out_timeout", "Logged Out Timeout", timeout + " minute(s)", timeout + " minutes(s)") ]
  }

  lemma PhpItemsShape(env: Env)
    ensures |PhpItems(env)| == 4 && Unique(PhpItems(env))
  {
    UniqueByIndex(PhpItems(env));
  }

  lemma DirectoryItemsShape(env: Env)
    ensures |DirectoryItems(env)| == 7 && Unique(DirectoryItems(env))
  {
    UniqueByIndex(DirectoryItems(env));
  }

  lemma GlobalItemsShape(env: Env)
    ensures |GlobalItems(env)| == 3 && Unique(GlobalItems(env))
  {
    UniqueByIndex(GlobalItems(env));
  }

  lemma SecurityItemsShape(env: Env)
    ensures |SecurityItems(env)| == 2 && Unique(SecurityItems(env))
  {
    UniqueByIndex(SecurityItems(env));
  }

  /** `get_report_items`: the items of the four tables, in table order. */
  function GetReportItems(env: Env): (r: seq<seq<Entry<Item>>>)
    ensures |r| == 4
    ensures |r[0]| == 4 && |r[1]| == 7 && |r[2]| == 3 && |r[3]| == 2
    ensures Unique(r[0]) && Unique(r[1]) && Unique(r[2]) && Unique(r[3])
  {
    var items := [PhpItems(env), DirectoryItems(env), GlobalItems(env), SecurityItems(env)];
    assert items[0] == PhpItems(env) && items[1] == DirectoryItems(env);
    assert items[2] == GlobalItems(env) && items[3] == SecurityItems(env);
    PhpItemsShape(env);
    DirectoryItemsShape(env);
    GlobalItemsShape(env);
    SecurityItemsShape(env);
    items
  }

  /** With no capabilities saved, the restriction row names the default capability. */
  lemma DefaultRestriction(env: Env)
    requires env.adminCapabilities.None?
    ensures GetReportItems(env)[3][0].val.value == "gravityforms_view_entries"
  {
  }

  /** A falsy `internal_encoding` (unset, `''` or `'0'`) is reported as the default charset. */
  lemma EncodingFallsBackToCharset(env: Env)
    requires env.internalEncoding in {"", "0"}
    ensures GetReportItems(env)[0][3].val.value == env.defaultCharset
  {
  }

  /** `$items[$id] = $info` for each item, in order. */
  function FillItems(acc: seq<Entry<Item>>, entries: seq<Entry<Item>>): seq<Entry<Item>>
    decreases |entries|
  {
    if entries == [] then acc else FillItems(Set(acc, entries[0].key, entries[0].val), entries[1..])
  }

  /** Filling items whose ids are all new lays them out in order after the existing ones. */
  lemma {:induction false} FillFreshItems(acc: seq<Entry<Item>>, entries: seq<Entry<Item>>)
    requires Unique(acc + entries)
    ensures FillItems(acc, entries) == acc + entries
    decreases |entries|
  {
    if entries != [] {
      var e := entries[0];
      UniqueConcatHead(acc, entries);
      var next := Set(acc, e.key, e.val);
      assert next == acc + [e];
      assert next + entries[1..] == acc + entries;
      FillFreshItems(next, entries[1..]);
    }
  }

  function FillTables(tables: seq<Table>, items: seq<seq<Entry<Item>>>): (r: seq<Table>)
    requires |items| == |tables|
    ensures |r| == |tables|
    ensures forall i :: 0 <= i < |r| ==>
      r[i].title == tables[i].title && r[i].titleExport == tables[i].titleExport
      && r[i].items == FillItems(tables[i].items, items[i])
  {
    seq(|tables|, i requires 0 <= i < |tables| => tables[i].(items := FillItems(tables[i].items, items[i])))
  }

  /** `build_gravitypdf_report`: the skeleton with table `i` filled from the `i`-th item list. */
  function BuildGravityPdfReport(env: Env): (r: Report)
    ensures |r| == 1 && r[0].title == GetReportStructure()[0].title
    ensures r[0].titleExport == GetReportStructure()[0].titleExport
    ensures |r[0].tables| == 4
    ensures forall i :: 0 <= i < 4 ==>
      && r[0].tables[i].title == GetReportStructure()[0].tables[i].title
      && r[0].tables[i].titleExport == GetReportStructure()[0].tables[i].titleExport
  {
    var structure := GetReportStructure();
    var sec := structure[0];
    [sec.(tables := FillTables(sec.tables, GetReportItems(env)))]
  }

  /** Each table of the built report holds exactly its item list, keyed by item id. */
  lemma BuiltTablesHoldTheirItems(env: Env, i: nat)
    requires i < 4
    ensures BuildGravityPdfReport(env)[0].tables[i].items == GetReportItems(env)[i]
  {
    var items := GetReportItems(env);
    var empty: seq<Entry<Item>> := [];
    assert empty + items[i] == items[i];
    FillFreshItems(empty, items[i]);
  }

  // ---------------------------------------------------------------------
  // move_gravitypdf_active_plugins_to_gf_addons

  /** A Gravity PDF plugin row: its label contains "Gravity PDF", in any case. */
  predicate IsGravityPdfPlugin(e: Entry<Item>) {
    ContainsIgnoreCase(e.val.name, "Gravity PDF")
  }

  predicate IsOtherPlugin(e: Entry<Item>) {
    !IsGravityPdfPlugin(e)
  }

  /** The "Active Plugins" table, `$report[1]['tables'][2]`, exists. */
  predicate HasActivePlugins(report: Report) {
    |report| >= 2 && |report[1].tables| >= 3
  }

  /** A section whose tables reach index 1, padded with empty tables when they do not. */
  function WithAddonTable(sec: Section): (r: Section)
    ensures |r.tables| >= 2
    ensures |sec.tables| >= 2 || r.tables[..|sec.tables|] == sec.tables
    ensures |sec.tables| >= 2 ==> r == sec
  {
    if |sec.tables| >= 2 then sec
    else sec.(tables := sec.tables + seq(2 - |sec.tables|, _ => Table("", "", [])))
  }

  function SetTableItems(sec: Section, i: nat, items: seq<Entry<Item>>): (r: Section)
    requires i < |sec.tables|
    ensures |r.tables| == |sec.tables| && r.title == sec.title && r.titleExport == sec.titleExport
    ensures r.tables[i] == sec.tables[i].(items := items)
    ensures forall j :: 0 <= j < |sec.tables| && j != i ==> r.tables[j] == sec.tables[j]
  {
    sec.(tables := sec.tables[i := sec.tables[i].(items := items)])
  }

  /**
   * The loop over the active plugins, as far as the add-on table is
   * concerned: rows passing `p` are pushed onto it, in order, under fresh
   * integer keys.
   */
  method PushPlugins(addons: seq<Entry<Item>>, plugins: seq<Entry<Item>>, p: Entry<Item> -> bool)
    returns (moved: seq<Entry<Item>>)
    ensures Values(moved) == Values(addons) + Values(Filter(p, plugins))
    ensures Unique(addons) ==> Unique(moved)
    ensures KeepsAndExtends(addons, moved)
  {
    moved := addons;
    var i := 0;
    while i < |plugins|
      invariant 0 <= i <= |plugins|
      invariant Values(moved) == Values(addons) + Values(Filter(p, plugins[..i]))
      invariant Unique(addons) ==> Unique(moved)
      invariant KeepsAndExtends(addons, moved)
    {
      PushPluginsStep(addons, plugins, p, i, moved);
      if p(plugins[i]) {
        PushKeepsAndExtends(addons, moved, plugins[i].val);
        moved := Push(moved, plugins[i].val);
      }
      i := i + 1;
    }
    assert plugins[..|plugins|] == plugins;
  }

  /**
   * `moved` starts with the entries of `addons`, keys included, and every
   * entry after them has a non-negative integer key that `addons` lacks.
   */
  ghost predicate KeepsAndExtends(addons: seq<Entry<Item>>, moved: seq<Entry<Item>>) {
    && |addons| <= |moved|
    && moved[..|addons|] == addons
    && forall j :: |addons| <= j < |moved| ==>
         moved[j].key.IntKey? && moved[j].key.i >= 0 && !HasKey(addons, moved[j].key)
  }

  /** `$a[] = $v` keeps the existing entries and adds one under a key that is new to them. */
  lemma PushKeepsAndExtends(addons: seq<Entry<Item>>, moved: seq<Entry<Item>>, v: Item)
    requires KeepsAndExtends(addons, moved)
    ensures KeepsAndExtends(addons, Push(moved, v))
  {
    var next := Push(moved, v);
    assert next[..|addons|] == next[..|moved|][..|addons|];
    var k := next[|moved|].key;
    assert moved == addons + moved[|addons|..];
    HasKeyConcat(addons, moved[|addons|..], k);
    forall j | |addons| <= j < |next|
      ensures next[j].key.IntKey? && next[j].key.i >= 0 && !HasKey(addons, next[j].key)
    {
      if j < |moved| {
        assert next[j] == next[..|moved|][j];
      }
    }
  }

  /** After one more row, the moved values are those of one more filtered row. */
  lemma PushPluginsStep(addons: seq<Entry<Item>>, plugins: seq<Entry<Item>>, p: Entry<Item> -> bool,
                        i: nat, moved: seq<Entry<Item>>)
    requires i < |plugins|
    requires Values(moved) == Values(addons) + Values(Filter(p, plugins[..i]))
    ensures var next := if p(plugins[i]) then Push(moved, plugins[i].val) else moved;
      Values(next) == Values(addons) + Values(Filter(p, plugins[..i + 1]))
  {
    var e := plugins[i];
    var before := Filter(p, plugins[..i]);
    assert plugins[..i + 1] == plugins[..i] + [e];
    FilterSnoc(p, plugins[..i], e);
    if p(e) {
      ValuesSnoc(before, e);
      assert Values(addons) + (Values(before) + [e.val]) == (Values(addons) + Values(before)) + [e.val];
    } else {
      assert before + [] == before;
    }
  }

  /** `move_gravitypdf_active_plugins_to_gf_addons`. */
  method MoveGravityPdfPlugins(report: Report) returns (r: Report)
    ensures !HasActivePlugins(report) ==> r == report
    ensures HasActivePlugins(report) && Filter(IsGravityPdfPlugin, report[1].tables[2].items) == [] ==> r == report
    ensures HasActivePlugins(report) && Filter(IsGravityPdfPlugin, report[1].tables[2].items) != [] ==>
      var plugins := report[1].tables[2].items;
      var target := WithAddonTable(report[0]);
      && |r| == |report|
      && (forall i :: 2 <= i < |r| ==> r[i] == report[i])
      && r[1] == SetTableItems(report[1], 2, Filter(IsOtherPlugin, plugins))
      && |r[0].tables| == |target.tables|
      && r[0] == SetTableItems(target, 1, r[0].tables[1].items)
      && Values(r[0].tables[1].items) == Values(target.tables[1].items) + Values(Filter(IsGravityPdfPlugin, plugins))
      && KeepsAndExtends(target.tables[1].items, r[0].tables[1].items)
      && (Unique(target.tables[1].items) ==> Unique(r[0].tables[1].items))
  {
    if !HasActivePlugins(report) {
      return report;
    }
    var plugins := report[1].tables[2].items;
    // The loop writes to the add-on table, and so creates it, only when a row moves.
    if Filter(IsGravityPdfPlugin, plugins) == [] {
      return report;
    }
    var target := WithAddonTable(report[0]);
    var moved := PushPlugins(target.tables[1].items, plugins, IsGravityPdfPlugin);
    // The rows pushed above are `unset` from the source table, which keeps the other keys.
    var kept := Filter(IsOtherPlugin, plugins);
    r := report[0 := SetTableItems(target, 1, moved)][1 := SetTableItems(report[1], 2, kept)];
  }

  /** Every plugin row ends up in exactly one of the two tables. */
  lemma MoveConservesPlugins(plugins: seq<Entry<Item>>)
    ensures |Filter(IsGravityPdfPlugin, plugins)| + |Filter(IsOtherPlugin, plugins)| == |plugins|
  {
    FilterPartitionCount(IsGravityPdfPlugin, IsOtherPlugin, plugins);
  }

  lemma ValuesLength<V>(a: seq<Entry<V>>)
    ensures |Values(a)| == |a|
  {
  }

  /**
   * After the move, the add-on table has gained as many rows as the
   * "Active Plugins" table has lost.
   */
  lemma MoveConservesCount(report: Report, r: Report)
    requires HasActivePlugins(report)
    requires |r| == |report| && |r[0].tables| >= 2 && |r[1].tables| >= 3
    requires r[1].tables[2].items == Filter(IsOtherPlugin, report[1].tables[2].items)
    requires Values(r[0].tables[1].items) == Values(WithAddonTable(report[0]).tables[1].items)
                                              + Values(Filter(IsGravityPdfPlugin, report[1].tables[2].items))
    ensures |r[0].tables[1].items| + |r[1].tables[2].items|
            == |WithAddonTable(report[0]).tables[1].items| + |report[1].tables[2].items|
  {
    var plugins := report[1].tables[2].items;
    MoveConservesPlugins(plugins);
    ValuesLength(r[0].tables[1].items);
    ValuesLength(WithAddonTable(report[0]).tables[1].items);
    ValuesLength(Filter(IsGravityPdfPlugin, plugins));
  }

  /** A label that starts with "Gravity PDF" marks a Gravity PDF plugin. */
  lemma GravityPdfLabel(text: string, rest: string)
    requires text == "Gravity PDF" + rest
    ensures ContainsIgnoreCase(text, "Gravity PDF")
  {
    var s := Lower(text);
    var pat := Lower("Gravity PDF");
    LowerConcat("Gravity PDF", rest);
    assert s[..|pat|] == pat;
    assert OccursAt(s, pat, 0);
  }

  /** "NotGravityPDF" lacks the space, so this label is not a Gravity PDF plugin. */
  lemma NotGravityPdfPlugin()
    ensures !ContainsIgnoreCase("NotGravityPDF Plugin", "Gravity PDF")
  {
    var pat := Lower("Gravity PDF");
    assert pat == "gravity pdf";
    var s := Lower("NotGravityPDF Plugin");
    assert s == "notgravitypdf plugin";
    forall j | 0 <= j && j + |pat| <= |s|
      ensures !OccursAt(s, pat, j)
    {
      if j == 3 {
        assert s[j..j + |pat|][7] == s[10];
      } else {
        assert s[j] != 'g';
        assert s[j..j + |pat|][0] == s[j];
      }
    }
  }

  /** The same for the longer label. */
  lemma NotGravityPdfPluginAgain()
    ensures !ContainsIgnoreCase("NotGravityPDF Plugin Again", "Gravity PDF")
  {
    var pat := Lower("Gravity PDF");
    assert pat == "gravity pdf";
    var s := Lower("NotGravityPDF Plugin Again");
    assert s[..16] == "notgravitypdf pl";
    forall j | 0 <= j && j + |pat| <= |s|
      ensures !OccursAt(s, pat, j)
    {
      if j == 3 {
        assert s[j..j + |pat|][7] == s[10];
      } else {
        assert s[j] == s[..16][j];
        assert s[j] != 'g';
        assert s[j..j + |pat|][0] == s[j];
      }
    }
  }

  /** The active-plugin rows used by the plugin's unit test for the move. */
  function SamplePlugins(): seq<Entry<Item>> {
    [ Entry(IntKey(0), Item("Gravity PDF Plugin", "", None)),
      Entry(IntKey(1), Item("NotGravityPDF Plugin", "", None)),
      Entry(IntKey(2), Item("NotGravityPDF Plugin Again", "", None)),
      Entry(IntKey(3), Item("Gravity PDF Bulk Generator", "", None)),
      Entry(IntKey(4), Item("Gravity PDF Something Plugin", "", None)) ]
  }

  /** Filtering five rows of which the first, fourth and fifth pass keeps three. */
  lemma FilterFirstFourthFifth<T>(p: T -> bool, s: seq<T>)
    requires |s| == 5
    requires p(s[0]) && !p(s[1]) && !p(s[2]) && p(s[3]) && p(s[4])
    ensures |Filter(p, s)| == 3
  {
    assert s[4..][1..] == [];
    assert s[3..][1..] == s[4..] && s[2..][1..] == s[3..] && s[1..][1..] == s[2..];
    assert |Filter(p, s[4..])| == 1;
    assert |Filter(p, s[3..])| == 2;
    assert |Filter(p, s[1..])| == 2;
  }

  /** Of the five sample rows, three move to the add-ons table and two stay. */
  lemma SampleMovesThreeKeepsTwo()
    ensures |Filter(IsGravityPdfPlugin, SamplePlugins())| == 3
    ensures |Filter(IsOtherPlugin, SamplePlugins())| == 2
  {
    var s := SamplePlugins();
    GravityPdfLabel(s[0].val.name, " Plugin");
    GravityPdfLabel(s[3].val.name, " Bulk Generator");
    GravityPdfLabel(s[4].val.name, " Something Plugin");
    NotGravityPdfPlugin();
    NotGravityPdfPluginAgain();
    FilterFirstFourthFifth(IsGravityPdfPlugin, s);
    MoveConservesPlugins(s);
  }

  /**
   * The sample report: the five sample rows in "Active Plugins" and an empty
   * add-on table. Moving them leaves three add-on rows and two plugin rows.
   */
  method MoveSampleReport() returns (r: Report)
    ensures |r| == 2 && |r[0].tables| >= 2 && |r[1].tables| >= 3
    ensures |r[0].tables[1].items| == 3 && |r[1].tables[2].items| == 2
  {
    var empty := Table("", "", []);
    var report := [Section("", "", [empty, empty]), Section("", "", [empty, empty, Table("", "", SamplePlugins())])];
    SampleMovesThreeKeepsTwo();
    r := MoveGravityPdfPlugins(report);
    ValuesLength(r[0].tables[1].items);
    ValuesLength(Filter(IsGravityPdfPlugin, SamplePlugins()));
  }

  // ---------------------------------------------------------------------
  // prepare_report

  /** The export shape of one row: `label`, `label_export`, `value`, `value_export`. */
  datatype Prepared = Prepared(name: string, nameExport: string, value: string, valueExport: string)

  /** `prepare_report`: the label is exported as shown, and the value too unless an export value exists. */
  function PrepareReport(item: Item): (r: Prepared)
    ensures r.name == item.name && r.nameExport == item.name && r.value == item.value
    ensures item.valueExport.Some? ==> r.valueExport == item.valueExport.value
    ensures item.valueExport.None? ==> r.valueExport == item.value
  {
    Prepared(item.name, item.name, item.value, item.valueExport.GetOr(item.value))
  }

  /** Items without an export value are exported exactly as displayed. */
  lemma PreparedPlainItemExportsAsShown(name: string, value: string)
    ensures var r := PrepareReport(Item(name, value, None));
      r.nameExport == r.name && r.valueExport == r.value
  {
  }
}

=== FILE: text.dfy ===
/**
 * String helpers shared by the JavaScript and PHP parts of the plugin.
 * Case mapping is ASCII only (`A`..`Z` to `a`..`z`), which is what PHP's
 * `strtolower`/`stripos` do and what JavaScript's `toLowerCase` does on the
 * ASCII range.
 */
module Text {

  predicate IsUpper(c: char) {
    'A' <= c <= 'Z'
  }

  function LowerChar(c: char): (r: char)
    ensures !IsUpper(r)
    ensures !IsUpper(c) ==> r == c
  {
    if IsUpper(c) then (c as int - 'A' as int + 'a' as int) as char else c
  }

  /** True when `s` has no upper-case letter. */
  predicate IsLowerCase(s: string) {
    forall i :: 0 <= i < |s| ==> !IsUpper(s[i])
  }

  /** `toLowerCase()` / `strtolower()`. */
  function Lower(s: string): (r: string)
    ensures |r| == |s|
    ensures IsLowerCase(r)
    ensures forall i :: 0 <= i < |s| ==> r[i] == LowerChar(s[i])
  {
    seq(|s|, i requires 0 <= i < |s| => LowerChar(s[i]))
  }

  lemma LowerIdempotent(s: string)
    ensures Lower(Lower(s)) == Lower(s)
  {
  }

  lemma LowerOfLowerCase(s: string)
    requires IsLowerCase(s)
    ensures Lower(s) == s
  {
  }

  lemma LowerConcat(a: string, b: string)
    ensures Lower(a + b) == Lower(a) + Lower(b)
  {
  }

  /** `pat` occurs in `s` starting at index `i`. */
  predicate OccursAt(s: string, pat: string, i: int) {
    0 <= i && i + |pat| <= |s| && s[i..i + |pat|] == pat
  }

  /** First index at or after `from` where `pat` occurs, or -1. */
  function IndexFrom(s: string, pat: string, from: nat): (r: int)
    requires from <= |s|
    ensures r == -1 || (from <= r && OccursAt(s, pat, r))
    ensures r == -1 ==> forall j :: from <= j <= |s| ==> !OccursAt(s, pat, j)
    ensures r != -1 ==> forall j :: from <= j < r ==> !OccursAt(s, pat, j)
    decreases |s| - from
  {
    if OccursAt(s, pat, from) then from
    else if from == |s| then -1
    else IndexFrom(s, pat, from + 1)
  }

  /** `s.indexOf(pat)` / `strpos($s, $pat)` with -1 for "not found". */
  function IndexOf(s: string, pat: string): (r: int)
    ensures r == -1 <==> forall j :: !OccursAt(s, pat, j)
    ensures r != -1 ==> OccursAt(s, pat, r) && forall j :: 0 <= j < r ==> !OccursAt(s, pat, j)
  {
    IndexFrom(s, pat, 0)
  }

  /** `s.includes(pat)` / `strpos($s, $pat) !== false`. */
  predicate Contains(s: string, pat: string) {
    IndexOf(s, pat) != -1
  }

  lemma ContainsEmpty(s: string)
    ensures Contains(s, "")
  {
    assert OccursAt(s, "", 0);
  }

  /** A pattern whose first character never appears in `s` does not occur in it. */
  lemma NotContainedWithoutFirstChar(s: string, pat: string)
    requires |pat| > 0 && pat[0] !in s
    ensures !Contains(s, pat)
  {
    forall j
      ensures !OccursAt(s, pat, j)
    {
      if 0 <= j && j + |pat| <= |s| {
        assert s[j..j + |pat|][0] == s[j];
      }
    }
  }

  /** Case-insensitive containment: `stripos(...) !== false`. */
  predicate ContainsIgnoreCase(s: string, pat: string) {
    Contains(Lower(s), Lower(pat))
  }

  /** `s.lastIndexOf(c)`: the last index holding `c`, or -1. */
  function LastIndexOf(s: string, c: char): (r: int)
    ensures -1 <= r < |s|
    ensures r != -1 ==> s[r] == c
    ensures forall j :: r < j < |s| ==> s[j] != c
  {
    if |s| == 0 then -1
    else if s[|s| - 1] == c then |s| - 1
    else LastIndexOf(s[..|s| - 1], c)
  }

  /** The part after the last `c` (the whole string when there is none). */
  function AfterLast(s: string, c: char): (r: string)
    ensures c !in r
    ensures |r| <= |s|
  {
    s[LastIndexOf(s, c) + 1..]
  }

  lemma {:induction false} LastIndexOfJoin(a: string, c: char, b: string)
    requires c !in b
    ensures LastIndexOf(a + [c] + b, c) == |a|
    decreases |b|
  {
    var s := a + [c] + b;
    if |b| == 0 {
      assert s[|s| - 1] == c;
    } else {
      assert s[|s| - 1] == b[|b| - 1];
      assert s[..|s| - 1] == a + [c] + b[..|b| - 1];
      LastIndexOfJoin(a, c, b[..|b| - 1]);
    }
  }

  lemma AfterLastJoin(a: string, c: char, b: string)
    requires c !in b
    ensures AfterLast(a + [c] + b, c) == b
  {
    LastIndexOfJoin(a, c, b);
  }

  lemma AfterLastWithout(s: string, c: char)
    requires c !in s
    ensures AfterLast(s, c) == s
  {
  }

  /** `s.replace(pat, rep)` with a string pattern: only the first occurrence is replaced. */
  function ReplaceFirst(s: string, pat: string, rep: string): (r: string)
    ensures IndexOf(s, pat) == -1 ==> r == s
    ensures IndexOf(s, pat) != -1 ==>
      var i := IndexOf(s, pat);
      && |r| == |s| - |pat| + |rep|
      && r[..i] == s[..i]
      && r[i..i + |rep|] == rep
      && r[i + |rep|..] == s[i + |pat|..]
  {
    var i := IndexOf(s, pat);
    if i == -1 then s else s[..i] + rep + s[i + |pat|..]
  }

  // ---------------------------------------------------------------------
  // Decimal numerals

  function DigitChar(d: nat): char
    requires d < 10
  {
    "0123456789"[d]
  }

  predicate IsDigit(c: char) {
    '0' <= c <= '9'
  }

  /** The decimal form of a non-negative integer: PHP's `(string) $n`, JavaScript's `String(n)`. */
  function Decimal(n: nat): (r: string)
    ensures |r| > 0
    ensures forall i :: 0 <= i < |r| ==> IsDigit(r[i])
    ensures n > 0 ==> r[0] != '0'
    ensures n == 0 ==> r == "0"
    decreases n
  {
    if n < 10 then [DigitChar(n)] else Decimal(n / 10) + [DigitChar(n % 10)]
  }

  function ParseDigits(s: string): nat
    requires forall i :: 0 <= i < |s| ==> IsDigit(s[i])
  {
    if s == [] then 0
    else
      assert IsDigit(s[|s| - 1]);
      ParseDigits(s[..|s| - 1]) * 10 + (s[|s| - 1] as int - '0' as int)
  }

  lemma {:induction false} ParseDecimal(n: nat)
    ensures ParseDigits(Decimal(n)) == n
    decreases n
  {
    if n >= 10 {
      var s := Decimal(n);
      assert s[..|s| - 1] == Decimal(n / 10);
      ParseDecimal(n / 10);
    }
  }

  /** Distinct numbers have distinct decimal forms. */
  lemma DecimalInjective()
    ensures forall a: nat, b: nat :: Decimal(a) == Decimal(b) ==> a == b
  {
    forall a: nat, b: nat | Decimal(a) == Decimal(b)
      ensures a == b
    {
      ParseDecimal(a);
      ParseDecimal(b);
    }
  }
}

=== FILE: toggle_update_font.dfy ===
/**
 * Opening and closing the font edit panel
 * (`src/assets/js/react/utilities/toggleUpdateFont.js`). The browser route
 * and the `show` class of the edit column are the whole state; the DOM
 * nodes themselves are not modelled.
 */
module ToggleUpdateFont {
  import opened Options
  import opened Text
  import opened FontUtils

  const Base: string := "/fontmanager/"

  /** The pushed route and whether the edit column carries `show`. */
  datatype Panel = Panel(route: string, show: bool)

  /** `removeClass`: closes the panel and returns to the font list route. */
  function RemoveClass(): (r: Panel)
    ensures r.route == Base && !r.show
  {
    Panel(Base, false)
  }

  /** `addClass`: opens the panel on the font's route. */
  function AddClass(fontId: string): (r: Panel)
    ensures r.route == Base + fontId && r.show
  {
    Panel(Base + fontId, true)
  }

  /** The last path segment, `pathname.substr(pathname.lastIndexOf('/') + 1)`. */
  function LastSegment(pathname: string): string {
    AfterLast(pathname, '/')
  }

  /**
   * `toggleUpdateFont`: with no (or an empty) id, or with the id already in
   * the route, the panel closes; otherwise it opens on that id.
   */
  function Toggle(pathname: string, fontId: Option<string>): (r: Panel)
    ensures !Truthy(fontId) ==> r == Panel(Base, false)
    ensures Truthy(fontId) && LastSegment(pathname) == fontId.value ==> r == Panel(Base, false)
    ensures Truthy(fontId) && LastSegment(pathname) != fontId.value ==> r == Panel(Base + fontId.value, true)
  {
    if Truthy(fontId) then
      if LastSegment(pathname) == fontId.value then RemoveClass() else AddClass(fontId.value)
    else RemoveClass()
  }

  lemma LastSegmentOfFontRoute(id: string)
    requires '/' !in id
    ensures LastSegment(Base + id) == id
  {
    assert Base + id == "/fontmanager" + ['/'] + id;
    AfterLastJoin("/fontmanager", '/', id);
  }

  lemma LastSegmentOfBase()
    ensures LastSegment(Base) == ""
  {
    LastSegmentOfFontRoute("");
    assert Base + "" == Base;
  }

  /** The panel shows exactly when the route ends in a (slash-free) font id. */
  lemma ShowIffRouteEndsInId(pathname: string, fontId: Option<string>)
    requires fontId.Some? ==> '/' !in fontId.value
    ensures var r := Toggle(pathname, fontId);
      r.show <==> LastSegment(r.route) != ""
  {
    LastSegmentOfBase();
    if Truthy(fontId) {
      LastSegmentOfFontRoute(fontId.value);
    }
  }

  /** Clicking the same font twice from the list route opens and then closes its panel. */
  lemma ToggleTwiceCloses(id: string)
    requires id != "" && '/' !in id
    ensures Toggle(Base, Some(id)) == Panel(Base + id, true)
    ensures Toggle(Toggle(Base, Some(id)).route, Some(id)) == Panel(Base, false)
  {
    LastSegmentOfBase();
    LastSegmentOfFontRoute(id);
  }

  /** With one panel open, clicking another font switches the panel to it. */
  lemma ToggleOtherSwitches(a: string, b: string)
    requires '/' !in a && b != "" && b != a
    ensures Toggle(Base + a, Some(b)) == Panel(Base + b, true)
  {
    LastSegmentOfFontRoute(a);
  }

  /** An id holding a `/` never matches the last segment, so the second click does not close. */
  lemma SlashInIdKeepsPanelOpen()
    ensures Toggle(Toggle(Base, Some("a/b")).route, Some("a/b")).show
  {
    LastSegmentOfBase();
    assert Base + "a/b" == "/fontmanager/a" + ['/'] + "b";
    AfterLastJoin("/fontmanager/a", '/', "b");
  }
}
